=== FILE: README.md ===
# Voucher back end: migration, voucher service, dashboard and envelopes, modelled in Dafny

The system is a NestJS back end for a voucher (invoice) book. Vouchers have
line items (details), a customer and a truck, both identified by their
name, and the account that created them. This project models its core:

- **Legacy migration** (`migration.dfy`, modules `Migration` and `MigrationProperties`).
  - A lazily opened source connection.
  - A bulk user import, where passwords are hashed and the login code is the legacy username.
  - A paginated document import. Each document becomes a voucher whose customer and truck are found or created by name. Its details follow, and failures are isolated per document. The reply is a page summary.
- **Voucher service** (`voucher_service.dfy`).
  - `escapeRegex`.
  - The filtered, newest-first, paginated list `getAll`.
  - `createInvoice`.
- **Dashboard** (`dashboard.dfy` over `ranking.dfy`). Vouchers are counted per creator. Revenue is totalled per customer, vouchers per truck and quantity per item. Each top-3 ranking comes from the same accumulate / sort descending / take three idiom, and the average order value is computed per month.
- **Login-code generator** (`login_code.dfy`). A code is five letters and three digits, and is drawn again while it collides with an existing login.
- **Response interceptor, exception filter and the pipeline** they form (`interceptors.dfy`, modules `Json`, `Envelope`, `ResponseInterceptor`, `ExceptionFilter` and `Pipeline`).

The target store (`store.dfy`) keeps each collection as a sequence. A
generated id is a row's position, so "ordered by `createdAt` descending"
means "by descending id". Customers and trucks are rows holding only their
unique name. `Store.Valid` states the store's invariants: names are unique,
and every reference points at an existing row. Unique login codes are
stated separately by `Store.LoginsUnique`, which the user import preserves.

Things the code cannot see are parameters of the model:

- the network, as `reachable`;
- which database writes throw, as `Faults` or a boolean;
- bcrypt, as `hash`;
- `JSON.stringify`, as `stringify`;
- `Math.random`, as a sequence of draws in [0, 1).

## Model

| member | source | states |
|---|---|---|
| Store.FindOrCreate | src/voucher/voucher.service.ts:163-182 | `connectOrCreate` by name returns the id of a row carrying that name; an existing name is reused with the collection unchanged, a new one is appended at the end |
| Store.FindOrCreateDistinct | src/migration/migration.service.ts:126-145 | find-or-create keeps customer and truck names unique, and afterwards exactly one row carries the name |
| Store.DistinctPairwise | src/migration/migration.service.ts:126-145 | the uniqueness invariant on customer and truck names holds exactly when no two rows carry the same name |
| Store.FindOrCreateIdempotent | src/migration/migration.service.ts:126-145 | resolving the same name a second time returns the same id and creates nothing |
| Store.UserByLogin | src/migration/migration.service.ts:147-151 | `connect: { userId }` finds an account with that login code, and finds none exactly when no account has it |
| Store.CreateVoucher | src/migration/migration.service.ts:123-153 | the nested voucher create appends one voucher with the given number, date and creator, whose customer and truck ids point at rows with the requested names; users, details and earlier vouchers are unchanged |
| Store.CreateVoucherValid | src/voucher/voucher.service.ts:160-190 | creating a voucher with an existing creator keeps names unique and every reference valid |
| Pagination.CeilDiv | src/migration/migration.service.ts:77 | `Math.ceil(total / rowPerPage)` is the least page count whose pages hold every row |
| Pagination.Slice | src/migration/migration.service.ts:87-89 | `LIMIT n OFFSET o` returns at most n rows, row k being source row o + k, and returns rows exactly when o is inside the table and n > 0 |
| Pagination.SliceWindow | src/migration/migration.service.ts:87-89 | the page is the table window from the offset to offset + limit, both clipped to the table: exactly min(limit, rows after the offset) rows when the offset is inside the table |
| Pagination.NextPageIffRemaining | src/migration/migration.service.ts:186-193 | `nextPage` is non-null exactly when `remainingPages` is positive, which is exactly when page < totalPages |
| Pagination.PageNonEmptyIff | src/migration/migration.service.ts:77-89 | a page numbered from 1 has rows exactly when it is at most `totalPages` |
| Pagination.NextPageNonEmpty | src/migration/migration.service.ts:186-193 | a reported next page always has rows, so following `nextPage` makes progress |
| Pagination.PagesUpToPrefix | src/migration/migration.service.ts:84-89 | fetching pages 1..n in order yields the first n * rowPerPage rows in order |
| Pagination.AllPagesCoverSource | src/migration/migration.service.ts:84-89 | pages 1..totalPages together are the whole table, each row once and in order |
| Migration.Connect | src/migration/migration.service.ts:19-28 | an open connection is reused; a closed one is opened, and fails exactly when the source is unreachable |
| Migration.ConnectAndQuery | src/migration/migration.service.ts:19-39 | `connect()` then the first `execute` succeed exactly when the source is reachable; a closed connection to an unreachable source fails to open, a cached one fails at the query |
| Migration.CloseThenConnect | src/migration/migration.service.ts:30-35 | after closing, the next call opens a fresh connection, which succeeds exactly when the source is reachable |
| Migration.MigrateUsers | src/migration/migration.service.ts:37-65 | an unreachable source gives an error and no change; otherwise no source users gives 'User list not found' and no change, a login code already taken fails the whole bulk insert with no change, and in every other case one account per source user is appended, with name and login code the username, empty email and phone, the hashed password and the invoking account as creator, and the reply counts them |
| Migration.MigrateUsersKeepsLoginsUnique | src/migration/migration.service.ts:48-61 | whatever the outcome of a user import, accounts that had unique login codes still have unique login codes afterwards |
| Migration.AppendedLoginsUnique | src/migration/migration.service.ts:48-61 | accounts appended past the unique-login guard, with the batch's usernames as login codes, leave no two accounts sharing a code |
| Migration.MigrateUsersTwiceFails | src/migration/migration.service.ts:48-61 | importing the same users a second time is rejected by the unique login code |
| Migration.DetailsOf | src/migration/migration.service.ts:105-107 | the detail query returns only rows of that document, and nothing exactly when the document has none |
| Migration.DetailsOfSnoc | src/migration/migration.service.ts:105-107 | one more table row is returned, after the others, exactly when it belongs to the document |
| Migration.DetailsOfAppend | src/migration/migration.service.ts:105-107 | the query keeps the order the database returns the rows in: the rows of a split table are the rows of the first part followed by those of the second |
| Migration.DetailsOfComplete | src/migration/migration.service.ts:105-107 | every table row of the document is returned |
| Migration.NatToString | src/migration/migration.service.ts:139-142 | the truck number's spelling is a non-empty string of decimal digits |
| Migration.NatToStringValue | src/migration/migration.service.ts:139-142 | the spelling has no leading zero and its digits denote the number |
| Migration.NatToStringInjective | src/migration/migration.service.ts:139-142 | distinct numbers are spelled differently |
| Migration.TruckNameInjective | src/migration/migration.service.ts:139-142 | distinct truck numbers give distinct truck names, so documents share a truck row exactly when they share a truck number |
| Migration.CreatorLogin | src/migration/migration.service.ts:149 | a legacy creator 'System' maps to login 'system'; every other creator maps to 'hmk' |
| Migration.MigrateDetail | src/migration/migration.service.ts:163-176 | a detail is linked to the new voucher, copies price, quantity and amount, and is ACTIVE exactly when the legacy status is 1 |
| Migration.MigrateDetailCopies | src/migration/migration.service.ts:163-176 | particular, particular note, ply and size are copied unchanged, and the note is copied as a present value |
| Migration.FirstDetailFault | src/migration/migration.service.ts:161-180 | the detail loop stops at the first insert that throws: every earlier insert succeeds |
| Migration.InsertHeader | src/migration/migration.service.ts:123-153 | the header create fails exactly when the store rejects it or the creator account is missing |
| Migration.MigratePageStep | src/migration/migration.service.ts:101-184 | the document loop handles the documents one at a time: migrating n documents is migrating n - 1 and then the n-th |
| Migration.MigrateOneDocument | src/migration/migration.service.ts:101-183 | the loop body inserts the header, then the details until the first failure, as `MigrateDocument` defines |
| Migration.MigrateFetched | src/migration/migration.service.ts:101-184 | the document loop migrates the fetched documents one after another, in page order |
| Migration.MigrateDocuments | src/migration/migration.service.ts:67-198 | an unreachable source or a negative LIMIT/OFFSET gives an error and no change; otherwise an empty page gives 'No more vouchers to migrate.' and no change, and a non-empty page is migrated document by document and always answered with a summary reporting the fetched count, whatever failed, the page, `ceil(total / rowPerPage)` pages, the remaining pages and the next page |
| MigrationProperties.MigrateDocumentEffect | src/migration/migration.service.ts:120-183 | a document without details, or whose header fails, changes nothing; otherwise exactly one voucher is appended, with the document's number and date, its customer and truck by name and its creator by login code, followed by its details up to the first failing insert; existing customer and truck rows are kept in place |
| MigrationProperties.MigrateDocumentAppends | src/migration/migration.service.ts:120-183 | one document adds one voucher, numbered after it, exactly when its header succeeds, plus its details up to the first failing insert, and keeps every earlier row |
| MigrationProperties.MigrateDocumentValid | src/migration/migration.service.ts:123-177 | migrating one document keeps the store valid |
| MigrationProperties.MigratePageValid | src/migration/migration.service.ts:101-184 | migrating a page keeps the store valid and its users unchanged |
| MigrationProperties.MigratePageStepValid | src/migration/migration.service.ts:101-184 | one more document of the page keeps a valid store valid and its users unchanged |
| MigrationProperties.MigratePageNamesUnique | src/migration/migration.service.ts:126-145 | after a page, at most one customer row and one truck row carry any given name |
| MigrationProperties.MigratePageAppends | src/migration/migration.service.ts:101-184 | the vouchers appended are exactly those of the documents whose header succeeded, in page order, whatever failed around them; existing users, vouchers and details are unchanged, and the existing customer and truck rows stay in place as a prefix |
| MigrationProperties.MigratePageStepAppends | src/migration/migration.service.ts:101-184 | one more document of the page appends to the store exactly what that document alone appends |
| MigrationProperties.SecondOfThreeFails | src/migration/migration.service.ts:121-180 | when the second of three headers throws, the first and third documents still get their vouchers, in order |
| MigrationProperties.AllHeadersFailing | src/migration/migration.service.ts:121-180 | when every header insert throws, no voucher or detail is written |
| MigrationProperties.TwentyFiveInPagesOfTen | src/migration/migration.service.ts:77-193 | 25 documents in pages of 10 make 3 pages; page 1 reports 2 remaining and next page 2, page 3 reports none, and page 3 holds the last five |
| VoucherService.EscapeRegex | src/voucher/voucher.service.ts:14-16 | the escaped text is one character longer per special character |
| VoucherService.UnescapeEscape | src/voucher/voucher.service.ts:14-16 | reading the escaped pattern as literal text gives back the search text exactly |
| VoucherService.EscapeConcat | src/voucher/voucher.service.ts:14-16 | escaping works character by character: the escape of a concatenation is the concatenation of the escapes |
| VoucherService.EscapeIdentityIff | src/voucher/voucher.service.ts:14-16 | escaping leaves a text unchanged exactly when it has no special character |
| VoucherService.SearchPattern | src/voucher/voucher.service.ts:32-54 | a pattern is used exactly when the search is present and non-empty, and it denotes the search text |
| VoucherService.ListedIds | src/voucher/voucher.service.ts:28-69 | the list holds exactly the vouchers the filter admits, each once, newest first |
| VoucherService.GetAll | src/voucher/voucher.service.ts:18-112 | a negative skip gives the 500 'Internal server error' and any other skip gives a page; the page has at most rowPerPage vouchers, is the skip/take window of the newest-first filtered list, and reports the filtered total and `ceil(total / rowPerPage)` pages |
| VoucherService.ListedIdsCount | src/voucher/voucher.service.ts:93-95 | the count with the same filter is the number of vouchers the filter admits |
| VoucherService.SearchNarrows | src/voucher/voucher.service.ts:28-54 | only ACTIVE vouchers are listed, and a search only removes vouchers from the list |
| VoucherService.OneDateIgnored | src/voucher/voucher.service.ts:56-61 | the date range applies only when both bounds are given; one bound alone changes nothing |
| VoucherService.GetAllPagesCover | src/voucher/voucher.service.ts:26-67 | stepping through pages 1..totalPages shows every admitted voucher exactly once, newest first |
| VoucherService.LineToDetail | src/voucher/voucher.service.ts:194-204 | a detail's amount is unit price times quantity, and its note is null exactly when the line's note is empty |
| VoucherService.CreateInvoice | src/voucher/voucher.service.ts:152-216 | a missing account or a rejected voucher create gives an error and no change; otherwise one voucher is appended with customer and truck found or created by name and the caller as creator, then one detail per line unless the detail insert throws, in which case the voucher remains |
| VoucherService.CreateInvoiceValid | src/voucher/voucher.service.ts:160-205 | invoice creation keeps the store valid whichever write throws |
| Ranking.Bump | src/dashboard/dashboard.service.ts:61-62 | `acc[k] = (acc[k] \|\| 0) + delta` adds delta under k, leaves every other key unchanged, adds k to the keys and keeps keys distinct |
| Ranking.TallyCorrect | src/dashboard/dashboard.service.ts:54-64 | the accumulation has one entry per key that occurs, each holding the sum of the deltas of the elements with that key |
| Ranking.GetEntry | src/dashboard/dashboard.service.ts:61-67 | with distinct keys, reading an entry's key gives that entry's value, so `Object.entries` reports what was accumulated |
| Ranking.Insert | src/dashboard/dashboard.service.ts:67 | inserting into a sorted list keeps it sorted and adds exactly the new entry, one longer, starting with the new entry or the old head |
| Ranking.SortDesc | src/dashboard/dashboard.service.ts:67 | the comparator sort yields a permutation of its input, by non-increasing value |
| Ranking.Top3 | src/dashboard/dashboard.service.ts:65-68 | `.sort(...).slice(0, 3)` keeps min(3, n) entries drawn from the input, largest first, and no entry left out is larger than one kept |
| Ranking.Top3Covers | src/dashboard/dashboard.service.ts:65-68 | an input entry is kept or no larger than every kept one, and is kept when fewer than three are |
| Dashboard.SumAmountsAppend | src/dashboard/dashboard.service.ts:31 | the revenue `reduce` is additive: the sum over two parts of a month is the sum of their sums |
| Dashboard.FindUser | src/dashboard/dashboard.service.ts:46 | `users.find` returns a user with the id, and none exactly when no user has it |
| Dashboard.FindUserFirst | src/dashboard/dashboard.service.ts:46 | `users.find` returns the first user carrying the id |
| Dashboard.UserLabelSpec | src/dashboard/dashboard.service.ts:46-47 | the label is the name of the first user carrying the id, and 'Unknown' when that name is empty or no user carries the id |
| Dashboard.CreatorCountsCorrect | src/dashboard/dashboard.service.ts:37-41 | the group-by has one group per creator, holding the number of vouchers that creator made |
| Dashboard.CreatedByIsSumWhere | src/dashboard/dashboard.service.ts:37-41 | counting a creator's vouchers is the group-by's per-key count |
| Dashboard.VoucherCountByUserSpec | src/dashboard/dashboard.service.ts:37-48 | one row per account that created a voucher and none for creator-less vouchers, each row with that account's voucher count and its label |
| Dashboard.CustomerRevenueCorrect | src/dashboard/dashboard.service.ts:54-64 | each customer name's revenue is the sum of the detail amounts of its vouchers; vouchers without a customer contribute nothing; a name is listed exactly when one of its vouchers exists |
| Dashboard.TopCustomersSpec | src/dashboard/dashboard.service.ts:65-68 | at most three customers by non-increasing revenue, each with its true revenue, none left out earning more than one kept |
| Dashboard.TopCustomerAt | src/dashboard/dashboard.service.ts:54-68 | each reported customer carries its true revenue |
| Dashboard.TruckUsage | src/dashboard/dashboard.service.ts:78-83 | `findMany where id in truckIds` returns exactly the listed trucks whose id some voucher uses, each with its voucher count |
| Dashboard.UsageComplete | src/dashboard/dashboard.service.ts:71-83 | every listed truck that a voucher uses appears in the usage list with its voucher count |
| Dashboard.TopTrucks | src/dashboard/dashboard.service.ts:82-85 | min(3, number of listed trucks in use) entries, by non-increasing count |
| Dashboard.UsageEntry | src/dashboard/dashboard.service.ts:71-83 | a truck in the usage list is a listed truck with its true, positive voucher count |
| Dashboard.TopTrucksSpec | src/dashboard/dashboard.service.ts:71-85 | entries by non-increasing count, each naming a listed truck in use with the number of vouchers that use it; every listed truck in use is either reported or used no more than each reported truck, and all are reported when fewer than three are |
| Dashboard.TopTruckCovers | src/dashboard/dashboard.service.ts:71-85 | a listed truck in use is reported or outranked by every reported truck, and is reported when fewer than three are |
| Dashboard.TopTruckAt | src/dashboard/dashboard.service.ts:82-85 | each reported entry names a listed truck whose voucher count is the reported one |
| Dashboard.TopItemsSpec | src/dashboard/dashboard.service.ts:108-117 | at most three item keys (ply, else particular, else 'Unknown') by non-increasing quantity, each with its total quantity, none left out larger |
| Dashboard.TopItemAt | src/dashboard/dashboard.service.ts:108-117 | each reported item carries the total quantity of the details keyed to it |
| Dashboard.AverageOrderValue | src/dashboard/dashboard.service.ts:97-102 | a month without vouchers averages 0; otherwise the average times the voucher count is the month's total amount |
| LoginCode.RandomIndex | libs/lib/src/LoginCodeGenerator.ts:19 | `Math.floor(Math.random() * n)` lies in [0, n), and is the floor of the scaled draw |
| LoginCode.Letter | libs/lib/src/LoginCodeGenerator.ts:18-21 | each of the first five characters is one of the 52 ASCII letters |
| LoginCode.Digit | libs/lib/src/LoginCodeGenerator.ts:24-27 | each of the last three characters is a decimal digit |
| LoginCode.Candidate | libs/lib/src/LoginCodeGenerator.ts:13-27 | a candidate has 8 characters, five letters followed by three digits |
| LoginCode.BuildCandidate | libs/lib/src/LoginCodeGenerator.ts:15-27 | the two character loops build exactly the candidate of the attempt's draws |
| LoginCode.Candidates | libs/lib/src/LoginCodeGenerator.ts:12-36 | every attempt the draws allow consumes eight draws, in order, and yields a well-formed candidate; fewer than eight draws are left over |
| LoginCode.FirstFree | libs/lib/src/LoginCodeGenerator.ts:29-39 | the retry returns only a candidate that some attempt produced and that is no existing login code |
| LoginCode.Generate | libs/lib/src/LoginCodeGenerator.ts:12-40 | the retry loop returns the first free candidate; a returned code is the candidate of its last attempt, and giving up means every attempt the draws allow was made |
| LoginCode.GenerateWellFormed | libs/lib/src/LoginCodeGenerator.ts:12-40 | a generated code is five letters and three digits and is no existing login code |
| LoginCode.FirstFreeNoneIff | libs/lib/src/LoginCodeGenerator.ts:29-39 | no code is returned exactly when every attempt the draws allow collides with an existing login code |
| LoginCode.FirstFreeIsFirst | libs/lib/src/LoginCodeGenerator.ts:29-39 | the code returned is the candidate of the first attempt that does not collide |
| LoginCode.IndexOfDraw | libs/lib/src/LoginCodeGenerator.ts:19 | the draw k / n selects index k, so every index is reachable |
| LoginCode.EveryCodeReachable | libs/lib/src/LoginCodeGenerator.ts:13-27 | every code of five letters and three digits is produced by some draws |
| Json.Field | libs/lib/src/interceptors/Response.interceptor.ts:45 | reading a field gives the value of the first field with that name, and `undefined` when there is none |
| Json.RemoveField | libs/lib/src/interceptors/Response.interceptor.ts:46 | deleting a key keeps exactly the fields with other names |
| Json.RemoveFieldAppend | libs/lib/src/interceptors/Response.interceptor.ts:46 | deleting a key keeps the remaining fields in their original order: deleting from a split object deletes from each part, and a lone field stays exactly when its name differs |
| Json.RemoveFieldLookup | libs/lib/src/interceptors/Response.interceptor.ts:46 | after deleting a key it reads `undefined`, and every other key reads as before |
| Json.RemoveFieldIdempotent | libs/lib/src/interceptors/Response.interceptor.ts:46 | deleting a key twice is deleting it once |
| Json.Unset | libs/lib/src/interceptors/Response.interceptor.ts:46 | `unset` changes objects only and leaves any other value as it is |
| Json.UnsetLookup | libs/lib/src/interceptors/Response.interceptor.ts:46 | after `unset(data, 'message')` the message reads `undefined` and every other property reads as before |
| ResponseInterceptor.Intercept | libs/lib/src/interceptors/Response.interceptor.ts:29-58 | with the skip flag set the result passes unchanged; a null or undefined result throws; otherwise success is true, devMessage is null, the message is the result's truthy `message` or 'Operation successful', and the body is the result without `message` and otherwise unchanged |
| ResponseInterceptor.RewrapBody | libs/lib/src/interceptors/Response.interceptor.ts:43-55 | passing an envelope's body through the interceptor again keeps the body and gives the default message |
| ExceptionFilter.Catch | libs/lib/src/interceptors/All-exception.filterer.ts:13-41 | an HttpException keeps its status and message and serialises `getResponse()`; anything else gives 500 'Internal server error' and serialises `String(exception)`; success is false and the body is null |
| Pipeline.Respond | libs/lib/src/interceptors/All-exception.filterer.ts:11-13 | every exception a handler raises is answered by the filter |
| Pipeline.RespondEnvelope | libs/lib/src/interceptors/Response.interceptor.ts:48-53 | `meta.success` holds exactly on the success path, a failure has a null body, and a raw result is sent only for skipped handlers |
| Pipeline.NullResultIsServerError | libs/lib/src/interceptors/Response.interceptor.ts:45 | a handler returning null or undefined, unless skipped, ends in a 500 'Internal server error' |

## Left out

- MySQL and Prisma I/O: queries are modelled by their results. SQL text, console logging, `Promise.all` concurrency and races between concurrent requests are not modelled.
- Migration.MigrateDocuments: the count query and the page query are read from one snapshot of the source.
- Migration.MigrateDocuments: the reply's `message` is modelled by the count it prints, not as text.
- Migration.MigrateDocuments: `page` (the query's `pageIndex`) is taken as an integer. The query object reaches the service untransformed, so the reply's `currentPage` sends back the query text ("2", not 2). A missing `pageIndex` gives `OFFSET NaN` and an SQL error. A fractional one such as "1.5" with `rowPerPage` 10 gives `OFFSET 5`, `currentPage` "1.5" and `nextPage` 2. None of these is modelled.
- Migration.MigrateDocuments: a `rowPerPage` that is not a whole number is not modelled. `rowPerPage = 0` gives `LIMIT 0`, hence an empty page and 'No more vouchers to migrate.'.
- Migration.MigrateUsers: the bulk insert is all or nothing. Partial inserts of `createMany` are not modelled.
- Migration.MigrateUsers: bcrypt and its random salt are the parameter `hash`.
- Migration.MigrateDocuments: the source is reachable or not for the whole call. A connection lost between the page query and a detail query is not modelled.
- Migration.TruckNameInjective: the legacy `truckNo` is read as an integer, so its name is the canonical decimal spelling. A text or fractional `truckNo` whose `toString()` is not canonical (such as "07" beside "7", "1.5", or exponent forms) is not modelled, and for such values distinct source rows could share a number but not a name.
- Migration.MigrateDetail: unit price, quantity and amount are integers, not IEEE doubles, so rounding of fractional amounts is not modelled.
- Migration.MigrateUsers: the login-code clash is the only store rejection modelled.
- Migration.MigrateDetail: a null legacy note is not modelled; the note is always copied as a string.
- VoucherService.GetAll requires `rowPerPage > 0`. With 0 or a negative value the code divides by zero or takes backwards, which is not modelled.
- VoucherService.GetAll: `include` projections are returned as voucher ids.
- VoucherService.GetAll: page and rowPerPage are integers given by the caller. The defaults page = 1 and rowPerPage = 10, and `parseInt` truncating a fractional or textual page, are not modelled.
- Pagination.PagesUpToPrefix: the source table is one fixed sequence ordered by strictly increasing `createdAt`. Each page is a separate `ORDER BY createdAt LIMIT … OFFSET …` query, so rows with equal `createdAt`, or rows written between two page requests, could be skipped or repeated across pages in the code; that is not modelled.
- Pagination.AllPagesCoverSource: "each row once, in order" rests on the same assumptions as Pagination.PagesUpToPrefix: no two rows share a `createdAt` and the table does not change between page requests.
- VoucherService.GetAllPagesCover: the newest-first order is the order of ids, that is, creation times are taken to be strictly increasing. Vouchers with equal `createdAt`, which the database may return in any order, and across pages inconsistently, are not modelled.
- VoucherService.LineToDetail: `unitPrice * qty` is an integer product, not an IEEE double product, so rounding is not modelled.
- VoucherService.GetAll: dates are integer timestamps, so parsing of `startDate`/`endDate` and invalid dates are not modelled.
- VoucherService.Listed: `contains` is modelled as a literal substring test of the escaped pattern, as the store applies it.
- VoucherService.CreateInvoice: the details' status is the schema default ACTIVE.
- VoucherService.CreateInvoice: DTO validation is not modelled.
- VoucherService.CreateInvoice: the rethrown `Error('Error creating invoice: ...')` is reduced to the error kind.
- getById (src/voucher/voucher.service.ts:114-150): a single lookup by id, with nothing to state beyond the lookup.
- Ranking.SortDesc: stability of JavaScript's sort for equal values is not stated as a property.
- Ranking.SortDesc: `Object.entries` listing integer-like keys first is not modelled; keys keep insertion order.
- Dashboard: the month windows of `monthlyRevenue` and `averageOrderValue` (date-fns `subMonths`, `startOfMonth`, `endOfMonth`, `format`) are not modelled. Each month is given as its list of rows.
- Dashboard.AverageOrderValue uses exact real division, not IEEE floating point.
- Dashboard: amounts and quantities are unbounded integers, not IEEE doubles.
- Dashboard: the order of the `groupBy` groups is not modelled.
- Ranking.Bump: the accumulator is an association list, not a plain object. Keys named after `Object.prototype` members behave differently in the code: `'__proto__'` is never listed, and `'constructor'` or `'toString'` start from a function, so the "sum" becomes a string.
- Dashboard.CustomerRevenueCorrect, Dashboard.TopCustomersSpec and Dashboard.TopCustomerAt: hold for customer names that are not `Object.prototype` member names such as `'__proto__'`, `'constructor'` or `'toString'`; for those, see Ranking.Bump.
- Dashboard.TopItemsSpec and Dashboard.TopItemAt: hold for item keys that are not `Object.prototype` member names; for those, see Ranking.Bump. Truck ids are generated identifiers, so the truck tally is not affected.
- LoginCode.Generate: the random stream is finite and each attempt consumes eight draws. When no full attempt is left the model answers `None`, where the code would keep retrying; the stream's length is the fuel.
- Json: numbers are integers, so NaN and fractions are not modelled; lodash `unset` on nested paths is not used by the code and not modelled.
- Pipeline.Respond: the HTTP status of a success (200 or 201) is left to the framework and not modelled.
- The Telegram bot and its interceptor are network I/O and are not part of this model.

=== FILE: dashboard.dfy ===
/**
 * The in-memory aggregations of the dashboard
 * (src/dashboard/dashboard.service.ts), computed over the rows the store
 * queries return.
 */
module Dashboard {
  import opened Wrappers
  import opened Pagination
  import opened Ranking

  datatype DetailRow = DetailRow(particular: string, ply: string, qty: int, amount: int)

  /** A voucher as read with its customer and details included. */
  datatype VoucherRow = VoucherRow(
    createdById: Option<string>,
    customer: Option<string>,
    truckId: string,
    details: seq<DetailRow>)

  datatype UserRow = UserRow(id: string, name: string)

  datatype TruckRow = TruckRow(id: string, name: string)

  datatype UserCount = UserCount(user: string, count: int)

  /** `reduce((sum, d) => sum + d.amount, 0)`. */
  function SumAmounts(ds: seq<DetailRow>): int {
    if |ds| == 0 then 0 else SumAmounts(ds[..|ds| - 1]) + ds[|ds| - 1].amount
  }

  /** The sum over a window split in two is the sum of the two parts' sums. */
  lemma {:induction false} SumAmountsAppend(a: seq<DetailRow>, b: seq<DetailRow>)
    ensures SumAmounts(a + b) == SumAmounts(a) + SumAmounts(b)
  {
    if |b| > 0 {
      assert (a + b)[..|a + b| - 1] == a + b[..|b| - 1];
      SumAmountsAppend(a, b[..|b| - 1]);
    } else {
      assert a + b == a;
    }
  }

  /** A voucher's revenue: the sum of its detail amounts. */
  function Revenue(v: VoucherRow): int {
    SumAmounts(v.details)
  }

  function TotalRevenue(vs: seq<VoucherRow>): int {
    if |vs| == 0 then 0 else TotalRevenue(vs[..|vs| - 1]) + Revenue(vs[|vs| - 1])
  }

  // ------------------------------------------------------- vouchers per user

  /** `users.find(u => u.id === id)`. */
  function FindUser(users: seq<UserRow>, id: string): (r: Option<UserRow>)
    ensures r.None? <==> forall k :: 0 <= k < |users| ==> users[k].id != id
    ensures r.Some? ==> r.value in users && r.value.id == id
  {
    if |users| == 0 then None
    else if users[0].id == id then Some(users[0])
    else FindUser(users[1..], id)
  }

  /** `user?.name || 'Unknown'`. */
  function UserLabel(users: seq<UserRow>, id: string): string {
    match FindUser(users, id)
    case Some(u) => if u.name != "" then u.name else "Unknown"
    case None => "Unknown"
  }

  /** `find` returns the first user carrying the id. */
  lemma {:induction false} FindUserFirst(users: seq<UserRow>, id: string, k: nat)
    requires k < |users| && users[k].id == id
    requires forall j :: 0 <= j < k ==> users[j].id != id
    ensures FindUser(users, id) == Some(users[k])
  {
    if k > 0 {
      FindUserFirst(users[1..], id, k - 1);
    }
  }

  /**
   * The label is the name of the first user carrying the id, or 'Unknown'
   * when that name is empty or no user carries the id.
   */
  lemma UserLabelSpec(users: seq<UserRow>, id: string)
    ensures (forall k :: 0 <= k < |users| ==> users[k].id != id) ==> UserLabel(users, id) == "Unknown"
    ensures forall k :: 0 <= k < |users| && users[k].id == id && (forall j :: 0 <= j < k ==> users[j].id != id) ==>
              UserLabel(users, id) == (if users[k].name != "" then users[k].name else "Unknown")
  {
    forall k | 0 <= k < |users| && users[k].id == id && (forall j :: 0 <= j < k ==> users[j].id != id)
      ensures UserLabel(users, id) == (if users[k].name != "" then users[k].name else "Unknown")
    {
      FindUserFirst(users, id, k);
    }
  }

  /** The `groupBy createdById` with a count, skipping vouchers without a creator. */
  function CreatorCounts(vs: seq<VoucherRow>): seq<Entry<string>> {
    Tally(vs, (v: VoucherRow) => v.createdById, (v: VoucherRow) => 1)
  }

  /** `voucherCountByUser`: each group labelled with its user's name. */
  function VoucherCountByUser(groups: seq<Entry<string>>, users: seq<UserRow>): (r: seq<UserCount>)
    ensures |r| == |groups|
  {
    seq(|groups|, k requires 0 <= k < |groups| => UserCount(UserLabel(users, groups[k].key), groups[k].value))
  }

  /** Reference definition: how many vouchers account `id` created. */
  function CreatedBy(vs: seq<VoucherRow>, id: string): nat {
    if |vs| == 0 then 0 else CreatedBy(vs[..|vs| - 1], id) + (if vs[|vs| - 1].createdById == Some(id) then 1 else 0)
  }

  lemma {:induction false} CreatedByIsSumWhere(vs: seq<VoucherRow>, id: string)
    ensures CreatedBy(vs, id) == SumWhere(vs, (v: VoucherRow) => v.createdById, (v: VoucherRow) => 1, id)
  {
    if |vs| > 0 {
      CreatedByIsSumWhere(vs[..|vs| - 1], id);
    }
  }

  /**
   * `voucherCountByUser`: one row per account that created a voucher, none
   * for vouchers without a creator, each with the number of vouchers that
   * account created and labelled with its name or 'Unknown'.
   */
  lemma VoucherCountByUserSpec(vs: seq<VoucherRow>, users: seq<UserRow>)
    ensures var groups := CreatorCounts(vs);
            var r := VoucherCountByUser(groups, users);
            && DistinctKeys(groups)
            && (forall k :: 0 <= k < |r| ==>
                  && r[k].count == CreatedBy(vs, groups[k].key)
                  && r[k].user == UserLabel(users, groups[k].key)
                  && exists i :: 0 <= i < |vs| && vs[i].createdById == Some(groups[k].key))
            && (forall i :: 0 <= i < |vs| && vs[i].createdById.Some? ==>
                  exists k :: 0 <= k < |groups| && groups[k].key == vs[i].createdById.value)
  {
    var groups := CreatorCounts(vs);
    var r := VoucherCountByUser(groups, users);
    TallyCorrect(vs, (v: VoucherRow) => v.createdById, (v: VoucherRow) => 1);
    KeysOfMembers(groups);
    forall k | 0 <= k < |r|
      ensures r[k].count == CreatedBy(vs, groups[k].key)
      ensures exists i :: 0 <= i < |vs| && vs[i].createdById == Some(groups[k].key)
    {
      GetEntry(groups, k);
      CreatedByIsSumWhere(vs, groups[k].key);
    }
  }

  /** Each group counts the vouchers of its creator, one group per creator. */
  lemma CreatorCountsCorrect(vs: seq<VoucherRow>)
    ensures DistinctKeys(CreatorCounts(vs))
    ensures forall id :: Get(CreatorCounts(vs), id)
                         == SumWhere(vs, (v: VoucherRow) => v.createdById, (v: VoucherRow) => 1, id)
  {
    TallyCorrect(vs, (v: VoucherRow) => v.createdById, (v: VoucherRow) => 1);
  }

  // ---------------------------------------------------------------- customers

  /** `customerRevenue`: revenue accumulated per customer name. */
  function CustomerRevenue(vs: seq<VoucherRow>): seq<Entry<string>> {
    Tally(vs, (v: VoucherRow) => v.customer, Revenue)
  }

  /** Reference definition: the revenue of the vouchers of customer `name`. */
  function RevenueOf(vs: seq<VoucherRow>, name: string): int {
    if |vs| == 0 then 0
    else RevenueOf(vs[..|vs| - 1], name) + (if vs[|vs| - 1].customer == Some(name) then Revenue(vs[|vs| - 1]) else 0)
  }

  lemma {:induction false} RevenueOfIsSumWhere(vs: seq<VoucherRow>, name: string)
    ensures RevenueOf(vs, name) == SumWhere(vs, (v: VoucherRow) => v.customer, Revenue, name)
  {
    if |vs| > 0 {
      RevenueOfIsSumWhere(vs[..|vs| - 1], name);
    }
  }

  /**
   * The revenue under a customer name is the sum of the detail amounts of
   * that customer's vouchers; vouchers without a customer contribute
   * nothing; names are listed once each.
   */
  lemma CustomerRevenueCorrect(vs: seq<VoucherRow>, name: string)
    ensures Get(CustomerRevenue(vs), name) == RevenueOf(vs, name)
    ensures DistinctKeys(CustomerRevenue(vs))
    ensures name in KeysOf(CustomerRevenue(vs)) <==> exists i :: 0 <= i < |vs| && vs[i].customer == Some(name)
  {
    TallyCorrect(vs, (v: VoucherRow) => v.customer, Revenue);
    RevenueOfIsSumWhere(vs, name);
  }

  function TopCustomers(vs: seq<VoucherRow>): seq<Entry<string>> {
    Top3(CustomerRevenue(vs))
  }

  /**
   * `topCustomers`: at most three customers, by non-increasing revenue, each
   * with its true revenue, and no customer left out earns more than one kept.
   */
  lemma TopCustomersSpec(vs: seq<VoucherRow>)
    ensures var r := TopCustomers(vs);
            && |r| <= 3
            && NonIncreasing(r)
            && (forall i :: 0 <= i < |r| ==> r[i].value == RevenueOf(vs, r[i].key))
            && (forall e, i :: e in multiset(CustomerRevenue(vs)) - multiset(r) && 0 <= i < |r| ==>
                  r[i].value >= e.value)
  {
    var r := TopCustomers(vs);
    forall i | 0 <= i < |r|
      ensures r[i].value == RevenueOf(vs, r[i].key)
    {
      TopCustomerAt(vs, i);
    }
  }

  /** The `i`-th reported customer carries its true revenue. */
  lemma TopCustomerAt(vs: seq<VoucherRow>, i: nat)
    ensures i < |TopCustomers(vs)| ==> TopCustomers(vs)[i].value == RevenueOf(vs, TopCustomers(vs)[i].key)
  {
    if i < |TopCustomers(vs)| {
      var e := TopCustomers(vs)[i];
      assert e in multiset(CustomerRevenue(vs));
      CustomerRevenueCorrect(vs, e.key);
      GetMember(CustomerRevenue(vs), e);
    }
  }

  // ------------------------------------------------------------------- trucks

  /** `truckCounts`: vouchers counted per truck id. */
  function TruckCounts(vs: seq<VoucherRow>): seq<Entry<string>> {
    Tally(vs, (v: VoucherRow) => Some(v.truckId), (v: VoucherRow) => 1)
  }

  /** Reference definition: how many vouchers use truck `id`. */
  function UsesOf(vs: seq<VoucherRow>, id: string): nat {
    if |vs| == 0 then 0 else UsesOf(vs[..|vs| - 1], id) + (if vs[|vs| - 1].truckId == id then 1 else 0)
  }

  lemma {:induction false} UsesOfIsSumWhere(vs: seq<VoucherRow>, id: string)
    ensures UsesOf(vs, id) == SumWhere(vs, (v: VoucherRow) => Some(v.truckId), (v: VoucherRow) => 1, id)
  {
    if |vs| > 0 {
      UsesOfIsSumWhere(vs[..|vs| - 1], id);
    }
  }

  /** The trucks `findMany where id in truckIds` returns, each with its count. */
  function TruckUsage(trucks: seq<TruckRow>, counts: seq<Entry<string>>): (r: seq<Entry<TruckRow>>)
    ensures forall e :: e in r ==> e.key in trucks && e.key.id in KeysOf(counts) && e.value == Get(counts, e.key.id)
    ensures forall t :: t in trucks && t.id in KeysOf(counts) ==> Entry(t, Get(counts, t.id)) in r
  {
    if |trucks| == 0 then []
    else
      var rest := TruckUsage(trucks[1..], counts);
      if trucks[0].id in KeysOf(counts) then [Entry(trucks[0], Get(counts, trucks[0].id))] + rest else rest
  }

  /**
   * `topTrucks`: the listed trucks that vouchers use, by use count, highest
   * first, at most three of them, reported by name.
   */
  function TopTrucks(trucks: seq<TruckRow>, vs: seq<VoucherRow>): (r: seq<Entry<string>>)
    ensures |r| == Min(3, |TruckUsage(trucks, TruckCounts(vs))|)
    ensures NonIncreasing(r)
  {
    var top := Top3(TruckUsage(trucks, TruckCounts(vs)));
    seq(|top|, i requires 0 <= i < |top| => Entry(top[i].key.name, top[i].value))
  }

  /** A truck used by some voucher has a count, which is its use count. */
  lemma {:induction false} UsesOfWitness(vs: seq<VoucherRow>, id: string)
    requires UsesOf(vs, id) > 0
    ensures exists j :: 0 <= j < |vs| && vs[j].truckId == id
  {
    var init := vs[..|vs| - 1];
    if vs[|vs| - 1].truckId != id {
      UsesOfWitness(init, id);
      var j :| 0 <= j < |init| && init[j].truckId == id;
      assert vs[j] == init[j];
    }
  }

  /** Every listed truck that some voucher uses is in the usage list, with its use count. */
  lemma UsageComplete(trucks: seq<TruckRow>, vs: seq<VoucherRow>, t: TruckRow)
    requires t in trucks && UsesOf(vs, t.id) > 0
    ensures Entry(t, UsesOf(vs, t.id)) in TruckUsage(trucks, TruckCounts(vs))
  {
    TallyCorrect(vs, (v: VoucherRow) => Some(v.truckId), (v: VoucherRow) => 1);
    UsesOfIsSumWhere(vs, t.id);
    UsesOfWitness(vs, t.id);
    var j :| 0 <= j < |vs| && vs[j].truckId == t.id;
  }

  /** A truck in the usage list is a listed truck with its true, positive use count. */
  lemma UsageEntry(trucks: seq<TruckRow>, vs: seq<VoucherRow>, e: Entry<TruckRow>)
    requires e in TruckUsage(trucks, TruckCounts(vs))
    ensures e.key in trucks && e.value == UsesOf(vs, e.key.id) && e.value > 0
  {
    TallyCorrect(vs, (v: VoucherRow) => Some(v.truckId), (v: VoucherRow) => 1);
    UsesOfIsSumWhere(vs, e.key.id);
    var j :| 0 <= j < |vs| && Some(vs[j].truckId) == Some(e.key.id);
    UsesPositive(vs, e.key.id, j);
  }

  /** `e` names a listed truck, used by at least one voucher, with its use count. */
  ghost predicate ReportsTruck(trucks: seq<TruckRow>, vs: seq<VoucherRow>, e: Entry<string>) {
    exists t :: t in trucks && t.name == e.key && e.value == UsesOf(vs, t.id) && UsesOf(vs, t.id) > 0
  }

  /** Every entry of `r` counts at least `n`. */
  ghost predicate Outranks(r: seq<Entry<string>>, n: int) {
    forall i :: 0 <= i < |r| ==> r[i].value >= n
  }

  /**
   * Every truck reported exists in the truck list, is used by at least one
   * voucher, and carries the number of vouchers that use it; every listed
   * truck in use is either reported or used no more than each reported one,
   * and when fewer than three are reported, every listed truck in use is.
   */
  lemma TopTrucksSpec(trucks: seq<TruckRow>, vs: seq<VoucherRow>)
    ensures var r := TopTrucks(trucks, vs);
            && NonIncreasing(r)
            && (forall i :: 0 <= i < |r| ==> ReportsTruck(trucks, vs, r[i]))
            && (forall t :: t in trucks && UsesOf(vs, t.id) > 0 ==>
                  Entry(t.name, UsesOf(vs, t.id)) in r || Outranks(r, UsesOf(vs, t.id)))
            && (|r| < 3 ==> forall t :: t in trucks && UsesOf(vs, t.id) > 0 ==> Entry(t.name, UsesOf(vs, t.id)) in r)
  {
    var r := TopTrucks(trucks, vs);
    forall i | 0 <= i < |r|
      ensures ReportsTruck(trucks, vs, r[i])
    {
      TopTruckAt(trucks, vs, i);
    }
    forall t | t in trucks && UsesOf(vs, t.id) > 0
      ensures Entry(t.name, UsesOf(vs, t.id)) in r || Outranks(r, UsesOf(vs, t.id))
      ensures |r| < 3 ==> Entry(t.name, UsesOf(vs, t.id)) in r
    {
      TopTruckCovers(trucks, vs, t);
    }
  }

  /** Where an unreported truck in use stands against the reported ones. */
  lemma TopTruckCovers(trucks: seq<TruckRow>, vs: seq<VoucherRow>, t: TruckRow)
    requires t in trucks && UsesOf(vs, t.id) > 0
    ensures var r := TopTrucks(trucks, vs);
            && (Entry(t.name, UsesOf(vs, t.id)) in r || Outranks(r, UsesOf(vs, t.id)))
            && (|r| < 3 ==> Entry(t.name, UsesOf(vs, t.id)) in r)
  {
    var r := TopTrucks(trucks, vs);
    var top := Top3(TruckUsage(trucks, TruckCounts(vs)));
    var e := Entry(t, UsesOf(vs, t.id));
    UsageComplete(trucks, vs, t);
    Top3Covers(TruckUsage(trucks, TruckCounts(vs)), e);
    if e in top {
      var i :| 0 <= i < |top| && top[i] == e;
      TopTrucksNamed(trucks, vs, i);
    } else {
      forall i | 0 <= i < |r|
        ensures r[i].value >= e.value
      {
        TopTrucksNamed(trucks, vs, i);
      }
    }
  }

  /** The `i`-th reported entry is the `i`-th of the top three trucks, by name. */
  lemma TopTrucksNamed(trucks: seq<TruckRow>, vs: seq<VoucherRow>, i: nat)
    ensures var top := Top3(TruckUsage(trucks, TruckCounts(vs)));
            var r := TopTrucks(trucks, vs);
            i < |top| ==> |r| == |top| && r[i] == Entry(top[i].key.name, top[i].value)
  {
  }

  /** The truck behind the `i`-th reported entry. */
  lemma TopTruckAt(trucks: seq<TruckRow>, vs: seq<VoucherRow>, i: nat)
    ensures i < |TopTrucks(trucks, vs)| ==> ReportsTruck(trucks, vs, TopTrucks(trucks, vs)[i])
  {
    if i < |TopTrucks(trucks, vs)| {
      var usage := TruckUsage(trucks, TruckCounts(vs));
      var top := Top3(usage);
      assert top[i] in multiset(usage);
      UsageEntry(trucks, vs, top[i]);
      var t := top[i].key;
      assert t.name == TopTrucks(trucks, vs)[i].key;
    }
  }

  lemma {:induction false} UsesPositive(vs: seq<VoucherRow>, id: string, j: nat)
    requires j < |vs| && vs[j].truckId == id
    ensures UsesOf(vs, id) > 0
  {
    if j < |vs| - 1 {
      assert vs[..|vs| - 1][j] == vs[j];
      UsesPositive(vs[..|vs| - 1], id, j);
    }
  }

  // -------------------------------------------------------------------- items

  /** `d.ply || d.particular || 'Unknown'`. */
  function ItemKey(d: DetailRow): string {
    if d.ply != "" then d.ply else if d.particular != "" then d.particular else "Unknown"
  }

  /** `itemCounts`: quantity accumulated per item key. */
  function ItemCounts(ds: seq<DetailRow>): seq<Entry<string>> {
    Tally(ds, (d: DetailRow) => Some(ItemKey(d)), (d: DetailRow) => d.qty)
  }

  /** Reference definition: the quantity of details whose item key is `item`. */
  function QtyOf(ds: seq<DetailRow>, item: string): int {
    if |ds| == 0 then 0 else QtyOf(ds[..|ds| - 1], item) + (if ItemKey(ds[|ds| - 1]) == item then ds[|ds| - 1].qty else 0)
  }

  lemma {:induction false} QtyOfIsSumWhere(ds: seq<DetailRow>, item: string)
    ensures QtyOf(ds, item) == SumWhere(ds, (d: DetailRow) => Some(ItemKey(d)), (d: DetailRow) => d.qty, item)
  {
    if |ds| > 0 {
      QtyOfIsSumWhere(ds[..|ds| - 1], item);
    }
  }

  function TopItems(ds: seq<DetailRow>): seq<Entry<string>> {
    Top3(ItemCounts(ds))
  }

  /**
   * `topItems`: at most three item keys by non-increasing quantity, each with
   * the total quantity of the details keyed to it, none left out larger.
   */
  lemma TopItemsSpec(ds: seq<DetailRow>)
    ensures var r := TopItems(ds);
            && |r| <= 3
            && NonIncreasing(r)
            && (forall i :: 0 <= i < |r| ==> r[i].value == QtyOf(ds, r[i].key))
            && (forall e, i :: e in multiset(ItemCounts(ds)) - multiset(r) && 0 <= i < |r| ==> r[i].value >= e.value)
  {
    var r := TopItems(ds);
    forall i | 0 <= i < |r|
      ensures r[i].value == QtyOf(ds, r[i].key)
    {
      TopItemAt(ds, i);
    }
  }

  /** The `i`-th reported item carries the total quantity keyed to it. */
  lemma TopItemAt(ds: seq<DetailRow>, i: nat)
    ensures i < |TopItems(ds)| ==> TopItems(ds)[i].value == QtyOf(ds, TopItems(ds)[i].key)
  {
    if i < |TopItems(ds)| {
      var e := TopItems(ds)[i];
      assert e in multiset(ItemCounts(ds));
      TallyCorrect(ds, (d: DetailRow) => Some(ItemKey(d)), (d: DetailRow) => d.qty);
      GetMember(ItemCounts(ds), e);
      QtyOfIsSumWhere(ds, e.key);
    }
  }

  // ---------------------------------------------------------- monthly figures

  /** A month's average order value: total detail amount over the number of vouchers, 0 for none. */
  function AverageOrderValue(month: seq<VoucherRow>): (r: real)
    ensures |month| == 0 ==> r == 0.0
    ensures |month| > 0 ==> r * (|month| as real) == TotalRevenue(month) as real
  {
    if |month| > 0 then TotalRevenue(month) as real / |month| as real else 0.0
  }
}

=== FILE: interceptors.dfy ===
/**
 * JavaScript values as the interceptors see them: what a handler returns
 * and what `JSON.stringify` serialises. Numbers are kept as integers;
 * object fields keep their insertion order.
 */
module Json {
  datatype Json =
    | JNull
    | JUndefined
    | JBool(b: bool)
    | JNum(n: int)
    | JStr(s: string)
    | JArr(items: seq<Json>)
    | JObj(fields: seq<(string, Json)>)

  /** JavaScript truthiness: `null`, `undefined`, `false`, `0` and `''` are falsy. */
  predicate Truthy(v: Json) {
    match v
    case JNull => false
    case JUndefined => false
    case JBool(b) => b
    case JNum(n) => n != 0
    case JStr(s) => s != ""
    case JArr(_) => true
    case JObj(_) => true
  }

  /** `fields[k]` on an object: the first field named `k`, or `undefined`. */
  function Field(fields: seq<(string, Json)>, k: string): (v: Json)
    ensures v != JUndefined ==> exists i :: 0 <= i < |fields| && fields[i] == (k, v)
    ensures (forall i :: 0 <= i < |fields| ==> fields[i].0 != k) ==> v == JUndefined
    ensures forall i :: 0 <= i < |fields| && fields[i].0 == k && (forall j :: 0 <= j < i ==> fields[j].0 != k)
                        ==> v == fields[i].1
  {
    if |fields| == 0 then JUndefined
    else if fields[0].0 == k then fields[0].1
    else
      var v := Field(fields[1..], k);
      assert v != JUndefined ==> exists i :: 0 <= i < |fields[1..]| && fields[1..][i] == (k, v);
      assert forall i :: 1 <= i < |fields| ==> fields[1..][i - 1] == fields[i];
      v
  }

  /**
   * `v.k` for a value that is not `null` or `undefined`: a field of an
   * object, `undefined` on every other value.
   */
  function Property(v: Json, k: string): Json
    requires !v.JNull? && !v.JUndefined?
  {
    if v.JObj? then Field(v.fields, k) else JUndefined
  }

  /** `delete fields[k]`: the fields with every other name, in their order. */
  function RemoveField(fields: seq<(string, Json)>, k: string): (r: seq<(string, Json)>)
    ensures forall i :: 0 <= i < |r| ==> r[i].0 != k && r[i] in fields
    ensures forall f :: f in fields && f.0 != k ==> f in r
    ensures |r| <= |fields|
  {
    if |fields| == 0 then []
    else
      var rest := RemoveField(fields[1..], k);
      if fields[0].0 == k then rest else [fields[0]] + rest
  }

  /**
   * Deleting keeps the remaining fields in their order: deleting from a
   * split object deletes from each part, and a single field is kept exactly
   * when its name differs.
   */
  lemma {:induction false} RemoveFieldAppend(a: seq<(string, Json)>, b: seq<(string, Json)>, k: string)
    ensures RemoveField(a + b, k) == RemoveField(a, k) + RemoveField(b, k)
    ensures |a| == 1 ==> RemoveField(a, k) == if a[0].0 == k then [] else a
  {
    if |a| > 0 {
      assert (a + b)[1..] == a[1..] + b;
      RemoveFieldAppend(a[1..], b, k);
    } else {
      assert a + b == b;
    }
  }

  /** Removing a field hides it and leaves every other field readable as before. */
  lemma {:induction false} RemoveFieldLookup(fields: seq<(string, Json)>, k: string, k': string)
    ensures Field(RemoveField(fields, k), k) == JUndefined
    ensures k' != k ==> Field(RemoveField(fields, k), k') == Field(fields, k')
  {
    if |fields| > 0 {
      RemoveFieldLookup(fields[1..], k, k');
    }
  }

  /** Removing a field twice is removing it once. */
  lemma {:induction false} RemoveFieldIdempotent(fields: seq<(string, Json)>, k: string)
    ensures RemoveField(RemoveField(fields, k), k) == RemoveField(fields, k)
  {
    if |fields| > 0 {
      RemoveFieldIdempotent(fields[1..], k);
      if fields[0].0 != k {
        assert ([fields[0]] + RemoveField(fields[1..], k))[1..] == RemoveField(fields[1..], k);
      }
    }
  }

  /** lodash `unset(v, k)`: deletes the property from an object, leaves any other value alone. */
  function Unset(v: Json, k: string): (r: Json)
    ensures v.JObj? <==> r.JObj?
    ensures !v.JObj? ==> r == v
  {
    if v.JObj? then JObj(RemoveField(v.fields, k)) else v
  }

  /** After `unset(v, k)` the property `k` reads `undefined` and every other property reads as before. */
  lemma UnsetLookup(v: Json, k: string)
    requires !v.JNull? && !v.JUndefined?
    ensures Property(Unset(v, k), k) == JUndefined
    ensures forall k' :: k' != k ==> Property(Unset(v, k), k') == Property(v, k')
  {
    if v.JObj? {
      forall k' | true
        ensures Field(RemoveField(v.fields, k), k) == JUndefined
        ensures k' != k ==> Field(RemoveField(v.fields, k), k') == Field(v.fields, k')
      {
        RemoveFieldLookup(v.fields, k, k');
      }
    }
  }
}

/**
 * The `{ meta, body }` envelope shared by the success interceptor and the
 * exception filter.
 */
module Envelope {
  import opened Wrappers
  import opened Json

  /** `meta.message` is whatever the handler put under `message`; `devMessage` is null or a string. */
  datatype Meta = Meta(success: bool, message: Json, devMessage: Option<string>)

  datatype ApiResponse = ApiResponse(meta: Meta, body: Json)
}

/**
 * The success path: unless the handler is marked `skipInterceptor`, its
 * result is wrapped into an envelope with the result's `message` lifted
 * into `meta`.
 */
module ResponseInterceptor {
  import opened Wrappers
  import opened Json
  import opened Envelope

  const DefaultMessage: string := "Operation successful"

  /** What `intercept` hands on: the raw result, an envelope, or the error its map callback throws. */
  datatype Intercepted =
    | PassedThrough(data: Json)
    | Wrapped(response: ApiResponse)
    | Thrown(typeError: string)

  /** The message of the TypeError raised by reading `.message` of `null` or `undefined`. */
  function ReadError(data: Json): string {
    if data.JNull? then "Cannot read properties of null (reading 'message')"
    else "Cannot read properties of undefined (reading 'message')"
  }

  function Intercept(skip: bool, data: Json): (r: Intercepted)
    ensures skip ==> r == PassedThrough(data)
    ensures !skip && (data.JNull? || data.JUndefined?) ==> r.Thrown?
    ensures !skip && !data.JNull? && !data.JUndefined? ==>
              && r.Wrapped?
              && r.response.meta.success
              && r.response.meta.devMessage.None?
              && (Truthy(Property(data, "message")) ==> r.response.meta.message == Property(data, "message"))
              && (!Truthy(Property(data, "message")) ==> r.response.meta.message == JStr(DefaultMessage))
              && Truthy(r.response.meta.message)
              && !r.response.body.JNull? && !r.response.body.JUndefined?
              && Property(r.response.body, "message") == JUndefined
              && (forall k :: k != "message" ==> Property(r.response.body, k) == Property(data, k))
              && (!data.JObj? ==> r.response.body == data)
  {
    if skip then PassedThrough(data)
    else if data.JNull? || data.JUndefined? then Thrown(ReadError(data))
    else
      var m := Property(data, "message");
      var message := if Truthy(m) then m else JStr(DefaultMessage);
      var body := Unset(data, "message");
      UnsetLookup(data, "message");
      Wrapped(ApiResponse(Meta(true, message, None), body))
  }

  /**
   * Wrapping is stable on its own output: feeding an envelope's body back
   * through the interceptor keeps the body and falls back to the default
   * message, because the body no longer has a `message`.
   */
  lemma RewrapBody(data: Json)
    requires !data.JNull? && !data.JUndefined?
    ensures var body := Intercept(false, data).response.body;
            && Intercept(false, body).Wrapped?
            && Intercept(false, body).response.body == body
            && Intercept(false, body).response.meta.message == JStr(DefaultMessage)
  {
    if data.JObj? {
      RemoveFieldIdempotent(data.fields, "message");
      RemoveFieldLookup(data.fields, "message", "message");
    }
  }
}

/**
 * The catch-all exception filter: the status of an `HttpException`, or
 * 500, and an envelope with `success = false` and a null body.
 */
module ExceptionFilter {
  import opened Wrappers
  import opened Json
  import opened Envelope

  const InternalServerError: int := 500
  const InternalServerErrorMessage: string := "Internal server error"

  /**
   * What reaches the filter: an `HttpException` (its status, its message
   * and what `getResponse()` returns) or any other thrown value, given by
   * the text `String(exception)` renders.
   */
  datatype Exception =
    | HttpException(status: int, message: string, response: Json)
    | OtherError(text: string)

  datatype Reply = Reply(status: int, response: ApiResponse)

  /** `catch`, with `JSON.stringify` as the parameter `stringify`. */
  function Catch(e: Exception, stringify: Json -> string): (r: Reply)
    ensures e.HttpException? ==> r.status == e.status && r.response.meta.message == JStr(e.message)
    ensures e.OtherError? ==> r.status == InternalServerError && r.response.meta.message == JStr(InternalServerErrorMessage)
    ensures e.HttpException? ==> r.response.meta.devMessage == Some(stringify(e.response))
    ensures e.OtherError? ==> r.response.meta.devMessage == Some(stringify(JStr(e.text)))
    ensures !r.response.meta.success && r.response.body == JNull
  {
    var status := if e.HttpException? then e.status else InternalServerError;
    var message := if e.HttpException? then e.message else InternalServerErrorMessage;
    var dev := if e.HttpException? then e.response else JStr(e.text);
    Reply(status, ApiResponse(Meta(false, JStr(message), Some(stringify(dev))), JNull))
  }
}

/**
 * A request as the two globals see it: the handler's outcome goes through
 * the response interceptor, and whatever is thrown, by the handler or by
 * the interceptor, ends in the exception filter.
 */
module Pipeline {
  import opened Json
  import opened Envelope
  import ResponseInterceptor
  import opened ExceptionFilter

  datatype HandlerOutcome = Returned(data: Json) | Raised(error: Exception)

  /** What is sent: the raw result, a success envelope, or the filter's reply. */
  datatype Sent = Raw(data: Json) | Success(response: ApiResponse) | Failure(reply: Reply)

  function Respond(skip: bool, outcome: HandlerOutcome, stringify: Json -> string): (r: Sent)
    ensures outcome.Raised? ==> r == Failure(Catch(outcome.error, stringify))
  {
    match outcome
    case Raised(e) => Failure(Catch(e, stringify))
    case Returned(data) =>
      match ResponseInterceptor.Intercept(skip, data)
      case PassedThrough(d) => Raw(d)
      case Wrapped(resp) => Success(resp)
      case Thrown(msg) => Failure(Catch(OtherError("TypeError: " + msg), stringify))
  }

  /**
   * Every envelope a request produces tells success and failure apart:
   * `meta.success` holds exactly on the success path, and a failure
   * always has a null body.
   */
  lemma RespondEnvelope(skip: bool, outcome: HandlerOutcome, stringify: Json -> string)
    ensures var r := Respond(skip, outcome, stringify);
            && (r.Success? ==> r.response.meta.success && r.response.meta.devMessage.None?)
            && (r.Failure? ==> !r.reply.response.meta.success && r.reply.response.body == JNull)
            && (r.Raw? <==> skip && outcome.Returned?)
  {
  }

  /** A handler that returns nothing, when not skipped, turns into a 500 "Internal server error". */
  lemma NullResultIsServerError(data: Json, stringify: Json -> string)
    requires data.JNull? || data.JUndefined?
    ensures var r := Respond(false, Returned(data), stringify);
            && r.Failure?
            && r.reply.status == InternalServerError
            && r.reply.response.meta.message == JStr(InternalServerErrorMessage)
  {
  }
}

=== FILE: login_code.dfy ===
/**
 * The login-code generator: five random ASCII letters followed by three
 * random decimal digits, drawn again whenever the code is already some
 * user's login id.
 *
 * `Math.random()` is a stream of draws in [0, 1) handed in as a sequence;
 * each attempt consumes eight draws. The stream's length bounds the number
 * of attempts: when it runs out the model answers `None`, where the
 * original would keep retrying.
 */
module LoginCode {
  import opened Wrappers

  const Alphabets: string := "ABCDEFGHIJKLMNOPQRSTUVWXYZabcdefghijklmnopqrstuvwxyz"
  const Numbers: string := "0123456789"

  /** Every draw lies in [0, 1), as `Math.random` promises. */
  predicate Draws(rnd: seq<real>) {
    forall k :: 0 <= k < |rnd| ==> 0.0 <= rnd[k] < 1.0
  }

  /** `Math.floor(x * n)`: the draw `x` scaled to an index into a string of length `n`. */
  function RandomIndex(x: real, n: nat): (i: nat)
    requires 0.0 <= x < 1.0 && n > 0
    ensures i < n
    ensures i as real <= x * n as real < (i + 1) as real
  {
    assert x * n as real < n as real by {
      assert (1.0 - x) * n as real > 0.0;
    }
    (x * n as real).Floor
  }

  /** Five letters, then three digits. */
  predicate WellFormed(code: string) {
    && |code| == 8
    && (forall k :: 0 <= k < 5 ==> code[k] in Alphabets)
    && (forall k :: 5 <= k < 8 ==> code[k] in Numbers)
  }

  function Letter(x: real): (c: char)
    requires 0.0 <= x < 1.0
    ensures c in Alphabets
  {
    Alphabets[RandomIndex(x, |Alphabets|)]
  }

  function Digit(x: real): (c: char)
    requires 0.0 <= x < 1.0
    ensures c in Numbers
  {
    Numbers[RandomIndex(x, |Numbers|)]
  }

  /** The code one attempt builds from its eight draws. */
  function Candidate(d: seq<real>): (code: string)
    requires |d| == 8 && Draws(d)
    ensures WellFormed(code)
  {
    [Letter(d[0]), Letter(d[1]), Letter(d[2]), Letter(d[3]), Letter(d[4]),
     Digit(d[5]), Digit(d[6]), Digit(d[7])]
  }

  /** The two loops of one attempt, appending one character per draw. */
  method BuildCandidate(d: seq<real>) returns (code: string)
    requires |d| == 8 && Draws(d)
    ensures code == Candidate(d)
  {
    code := "";
    for i := 0 to 5
      invariant |code| == i
      invariant forall k :: 0 <= k < i ==> code[k] == Letter(d[k])
    {
      code := code + [Letter(d[i])];
    }
    for i := 0 to 3
      invariant |code| == 5 + i
      invariant forall k :: 0 <= k < 5 ==> code[k] == Letter(d[k])
      invariant forall k :: 5 <= k < 5 + i ==> code[k] == Digit(d[k])
    {
      code := code + [Digit(d[5 + i])];
    }
  }

  /** The draws of attempt `j` (counting from 0). */
  function Attempt(rnd: seq<real>, j: nat): (d: seq<real>)
    requires 8 * j + 8 <= |rnd| && Draws(rnd)
    ensures |d| == 8 && Draws(d)
  {
    rnd[8 * j..8 * j + 8]
  }

  /** The candidate of every attempt the draws allow, in order. */
  function Candidates(rnd: seq<real>): (cs: seq<string>)
    requires Draws(rnd)
    ensures 8 * |cs| <= |rnd| < 8 * |cs| + 8
    ensures forall i :: 0 <= i < |cs| ==> WellFormed(cs[i])
  {
    seq(|rnd| / 8, i requires 0 <= i < |rnd| / 8 => Candidate(Attempt(rnd, i)))
  }

  /**
   * Reference definition of the retry in `generate`, from attempt `j` on:
   * the first candidate that is not taken, or `None` when they run out.
   */
  function FirstFree(taken: set<string>, cs: seq<string>, j: nat): (r: Option<string>)
    ensures r.Some? ==> r.value in cs && r.value !in taken
    decreases |cs| - j
  {
    if j >= |cs| then None
    else if cs[j] in taken then FirstFree(taken, cs, j + 1)
    else Some(cs[j])
  }

  /**
   * `generate`, with the recursion as a loop. `taken` is the set of login
   * ids in the user table; `attempts` counts the candidates built.
   */
  method Generate(taken: set<string>, rnd: seq<real>) returns (code: Option<string>, attempts: nat)
    requires Draws(rnd)
    ensures code == FirstFree(taken, Candidates(rnd), 0)
    ensures code.Some? ==> 1 <= attempts <= |Candidates(rnd)| && code.value == Candidates(rnd)[attempts - 1]
    ensures code.None? ==> attempts == |Candidates(rnd)|
  {
    ghost var cs := Candidates(rnd);
    attempts := 0;
    while 8 * attempts + 8 <= |rnd|
      invariant attempts <= |cs|
      invariant FirstFree(taken, cs, 0) == FirstFree(taken, cs, attempts)
    {
      var c := BuildCandidate(Attempt(rnd, attempts));
      assert c == cs[attempts];
      if c !in taken {
        code := Some(c);
        attempts := attempts + 1;
        return;
      }
      attempts := attempts + 1;
    }
    code := None;
  }

  /** A generated code has the five-letters-three-digits format and is no existing login code. */
  lemma GenerateWellFormed(taken: set<string>, rnd: seq<real>)
    requires Draws(rnd)
    ensures var r := FirstFree(taken, Candidates(rnd), 0);
            r.Some? ==> WellFormed(r.value) && r.value !in taken
  {
  }

  /** The generator gives up only when every candidate collides with an existing login. */
  lemma {:induction false} FirstFreeNoneIff(taken: set<string>, cs: seq<string>, j: nat)
    ensures FirstFree(taken, cs, j).None? <==> forall i :: j <= i < |cs| ==> cs[i] in taken
    decreases |cs| - j
  {
    if j < |cs| {
      FirstFreeNoneIff(taken, cs, j + 1);
    }
  }

  /**
   * The generator returns the first candidate that is not taken; with
   * `FirstFreeNoneIff` this pins its answer down for every stream.
   */
  lemma {:induction false} FirstFreeIsFirst(taken: set<string>, cs: seq<string>, j: nat, n: nat)
    requires j <= n < |cs|
    requires forall i :: j <= i < n ==> cs[i] in taken
    requires cs[n] !in taken
    ensures FirstFree(taken, cs, j) == Some(cs[n])
    decreases n - j
  {
    if j < n {
      FirstFreeIsFirst(taken, cs, j + 1, n);
    }
  }

  /** A draw of `k / n` selects index `k`. */
  lemma IndexOfDraw(k: nat, n: nat)
    requires k < n
    ensures 0.0 <= k as real / n as real < 1.0
    ensures RandomIndex(k as real / n as real, n) == k
  {
    assert k as real / n as real * n as real == k as real;
  }

  function IndexIn(c: char, s: string): (i: nat)
    requires c in s
    ensures i < |s| && s[i] == c
  {
    if s[0] == c then 0 else 1 + IndexIn(c, s[1..])
  }

  /** Every well-formed code is what some eight draws produce: no code is out of reach. */
  lemma EveryCodeReachable(code: string) returns (d: seq<real>)
    requires WellFormed(code)
    ensures |d| == 8 && Draws(d) && Candidate(d) == code
  {
    var x0 := LetterDraw(code[0]);
    var x1 := LetterDraw(code[1]);
    var x2 := LetterDraw(code[2]);
    var x3 := LetterDraw(code[3]);
    var x4 := LetterDraw(code[4]);
    var x5 := DigitDraw(code[5]);
    var x6 := DigitDraw(code[6]);
    var x7 := DigitDraw(code[7]);
    d := [x0, x1, x2, x3, x4, x5, x6, x7];
    assert Draws(d);
    assert code == [code[0], code[1], code[2], code[3], code[4], code[5], code[6], code[7]];
  }

  lemma LetterDraw(c: char) returns (x: real)
    requires c in Alphabets
    ensures 0.0 <= x < 1.0 && Letter(x) == c
  {
    var i := IndexIn(c, Alphabets);
    IndexOfDraw(i, |Alphabets|);
    x := i as real / |Alphabets| as real;
  }

  lemma DigitDraw(c: char) returns (x: real)
    requires c in Numbers
    ensures 0.0 <= x < 1.0 && Digit(x) == c
  {
    var i := IndexIn(c, Numbers);
    IndexOfDraw(i, |Numbers|);
    x := i as real / |Numbers| as real;
  }
}

=== FILE: migration.dfy ===
/**
 * The one-way migration from the legacy relational source into the target
 * store (src/migration/migration.service.ts): users in one bulk insert,
 * documents and their details page by page with per-document failure
 * isolation.
 */
module Migration {
  import opened Wrappers
  import opened Store
  import opened Pagination

  /** A row of the source `users` table. */
  datatype SourceUser = SourceUser(uid: int, username: string, password: string, role: int, status: int)

  /** A row of the source `documents` table. */
  datatype SourceDocument = SourceDocument(
    docid: int,
    voucherId: string,
    customerName: string,
    truckNo: int,
    date: int,
    createdBy: string)

  /** A row of the source `document_details` table. */
  datatype SourceDetail = SourceDetail(
    docid: int,
    particular: string,
    particularNote: string,
    ply: string,
    size: string,
    unitPrice: int,
    qty: int,
    amount: int,
    note: string,
    status: int)

  /**
   * The source database. `documents` is in `createdAt` ascending order, the
   * order the page query sorts by; `details` is in the order the database
   * returns it, since the detail query has no ORDER BY.
   */
  datatype Source = Source(users: seq<SourceUser>, documents: seq<SourceDocument>, details: seq<SourceDetail>)

  /** The lazily opened source connection, reduced to whether it is open. */
  datatype Connection = Closed | Open

  datatype MigrationError =
    | SourceUnavailable   // the connection could not be opened
    | QueryFailed         // the source rejected the page query
    | DuplicateUserId     // the bulk user insert hit the unique login code

  /** What a migration call leaves behind: the store, the connection and the reply. */
  datatype Step<R> = Step(store: Store, conn: Connection, reply: Result<R, MigrationError>)

  // ---------------------------------------------------------------- connection

  /** Opens the connection unless one is open already; `reachable` is the network. */
  function Connect(c: Connection, reachable: bool): (r: Result<Connection, MigrationError>)
    ensures c == Open ==> r == Ok(Open)
    ensures r.Ok? ==> r.value == Open
    ensures r.Err? <==> c.Closed? && !reachable
  {
    if c == Open then Ok(Open)
    else if reachable then Ok(Open)
    else Err(SourceUnavailable)
  }

  /** Ends the connection if open and forgets it. */
  function CloseConnection(c: Connection): Connection {
    Closed
  }

  /** After closing, the next call reconnects instead of reusing a dead handle. */
  lemma CloseThenConnect(c: Connection, reachable: bool)
    ensures Connect(CloseConnection(c), reachable).Ok? <==> reachable
  {
  }

  /**
   * `connect()` followed by the first `execute`: a cached handle is reused
   * without a check, so on an unreachable source it is the query that throws.
   */
  function ConnectAndQuery(c: Connection, reachable: bool): (r: Result<Connection, MigrationError>)
    ensures r.Ok? <==> reachable
    ensures r.Ok? ==> r.value == Open
    ensures !reachable ==> r == Err(if c.Closed? then SourceUnavailable else QueryFailed)
  {
    match Connect(c, reachable)
    case Err(e) => Err(e)
    case Ok(c') => if reachable then Ok(c') else Err(QueryFailed)
  }

  // --------------------------------------------------------------------- users

  datatype UserReply = UserListNotFound | UsersCreated(count: nat)

  /** The target account built for one source user by the invoking account. */
  function MapUser(u: SourceUser, invokerId: nat, hash: string -> string): User {
    User(u.username, "", "", hash(u.password), u.username, Some(invokerId))
  }

  /** The bulk insert passes the unique `userId` constraint. */
  predicate LoginsFree(existing: seq<User>, batch: seq<SourceUser>) {
    && (forall k, m :: 0 <= k < |batch| && 0 <= m < |existing| ==> batch[k].username != existing[m].userId)
    && (forall k, m :: 0 <= k < m < |batch| ==> batch[k].username != batch[m].username)
  }

  /**
   * `migrateUser`: read every source user, and unless there are none, insert
   * one target account per row in a single bulk insert. `hash` stands for
   * bcrypt with a fresh salt.
   */
  function MigrateUsers(s: Store, c: Connection, reachable: bool, src: seq<SourceUser>,
                        invokerId: nat, hash: string -> string): (r: Step<UserReply>)
    ensures !reachable ==> r == Step(s, c, Err(if c.Closed? then SourceUnavailable else QueryFailed))
    ensures reachable ==> r.conn == Open
    ensures r.reply != Ok(UsersCreated(|src|)) ==> r.store == s
    ensures reachable && |src| == 0 ==> r.reply == Ok(UserListNotFound)
    ensures reachable && |src| > 0 && !LoginsFree(s.users, src) ==> r.reply == Err(DuplicateUserId)
    ensures reachable && |src| > 0 && LoginsFree(s.users, src) ==> r.reply == Ok(UsersCreated(|src|))
    ensures r.reply == Ok(UsersCreated(|src|)) ==>
              && |src| > 0
              && r.store == s.(users := r.store.users)
              && |r.store.users| == |s.users| + |src|
              && r.store.users[..|s.users|] == s.users
              && forall k :: 0 <= k < |src| ==>
                   var u := r.store.users[|s.users| + k];
                   && u.name == src[k].username && u.userId == src[k].username
                   && u.email == "" && u.phone == ""
                   && u.passwordHash == hash(src[k].password)
                   && u.createdById == Some(invokerId)
  {
    match ConnectAndQuery(c, reachable)
    case Err(e) => Step(s, c, Err(e))
    case Ok(c') =>
      if |src| == 0 then Step(s, c', Ok(UserListNotFound))
      else if !LoginsFree(s.users, src) then Step(s, c', Err(DuplicateUserId))
      else
        var created := seq(|src|, k requires 0 <= k < |src| => MapUser(src[k], invokerId, hash));
        Step(s.(users := s.users + created), c', Ok(UsersCreated(|src|)))
  }

  /** Migrating the same users a second time fails on the unique login code. */
  lemma MigrateUsersTwiceFails(s: Store, c: Connection, src: seq<SourceUser>, invokerId: nat,
                               hash: string -> string)
    requires MigrateUsers(s, c, true, src, invokerId, hash).reply.Ok?
    requires |src| > 0
    ensures var first := MigrateUsers(s, c, true, src, invokerId, hash);
            MigrateUsers(first.store, first.conn, true, src, invokerId, hash).reply == Err(DuplicateUserId)
  {
    var first := MigrateUsers(s, c, true, src, invokerId, hash);
    var users := first.store.users;
    assert users[|s.users| + 0].userId == src[0].username;
    assert !LoginsFree(users, src);
  }

  /**
   * The login-code guard keeps login codes unique: a bulk insert that gets
   * through it adds codes that clash neither with the existing accounts nor
   * with each other.
   */
  lemma MigrateUsersKeepsLoginsUnique(s: Store, c: Connection, reachable: bool, src: seq<SourceUser>,
                                      invokerId: nat, hash: string -> string)
    requires LoginsUnique(s.users)
    ensures LoginsUnique(MigrateUsers(s, c, reachable, src, invokerId, hash).store.users)
  {
    var r := MigrateUsers(s, c, reachable, src, invokerId, hash);
    if r.reply == Ok(UsersCreated(|src|)) {
      AppendedLoginsUnique(s.users, src, r.store.users);
    }
  }

  /** Accounts appended with the batch's usernames as login codes, past the guard, keep codes unique. */
  lemma AppendedLoginsUnique(existing: seq<User>, src: seq<SourceUser>, users: seq<User>)
    requires LoginsUnique(existing) && LoginsFree(existing, src)
    requires |users| == |existing| + |src| && users[..|existing|] == existing
    requires forall k :: 0 <= k < |src| ==> users[|existing| + k].userId == src[k].username
    ensures LoginsUnique(users)
  {
    var n := |existing|;
    forall i, j | 0 <= i < j < |users|
      ensures users[i].userId != users[j].userId
    {
      if j < n {
        assert users[i] == existing[i] && users[j] == existing[j];
      } else if i < n {
        assert users[i] == existing[i] && users[j].userId == src[j - n].username;
      } else {
        assert users[i].userId == src[i - n].username && users[j].userId == src[j - n].username;
      }
    }
  }

  // ----------------------------------------------------------------- documents

  /** The details `SELECT ... WHERE docid = id` returns, in the order the database returns them. */
  function DetailsOf(rows: seq<SourceDetail>, docid: int): (r: seq<SourceDetail>)
    ensures forall k :: 0 <= k < |r| ==> r[k] in rows && r[k].docid == docid
    ensures |r| == 0 <==> forall k :: 0 <= k < |rows| ==> rows[k].docid != docid
  {
    if |rows| == 0 then []
    else
      var init := DetailsOf(rows[..|rows| - 1], docid);
      var last := rows[|rows| - 1];
      assert forall k :: 0 <= k < |rows| - 1 ==> rows[..|rows| - 1][k] == rows[k];
      if last.docid == docid then init + [last] else init
  }

  /** Appending one row to the table appends it to the answer exactly when it belongs to the document. */
  lemma DetailsOfSnoc(rows: seq<SourceDetail>, x: SourceDetail, docid: int)
    ensures DetailsOf(rows + [x], docid) == DetailsOf(rows, docid) + (if x.docid == docid then [x] else [])
  {
  }

  /**
   * The query keeps the rows' order: the answer for a split table is the answer
   * for the first part followed by the answer for the second.
   */
  lemma {:induction false} DetailsOfAppend(a: seq<SourceDetail>, b: seq<SourceDetail>, docid: int)
    ensures DetailsOf(a + b, docid) == DetailsOf(a, docid) + DetailsOf(b, docid)
    decreases |b|
  {
    if |b| == 0 {
      assert a + b == a;
    } else {
      var b', x := b[..|b| - 1], b[|b| - 1];
      assert b == b' + [x];
      assert a + b == (a + b') + [x];
      DetailsOfAppend(a, b', docid);
      DetailsOfSnoc(a + b', x, docid);
      DetailsOfSnoc(b', x, docid);
    }
  }

  /** No detail row of the document is missed. */
  lemma {:induction false} DetailsOfComplete(rows: seq<SourceDetail>, docid: int, k: nat)
    requires k < |rows| && rows[k].docid == docid
    ensures rows[k] in DetailsOf(rows, docid)
  {
    var a, b := rows[..k], rows[k..];
    assert rows == a + b;
    DetailsOfAppend(a, b, docid);
    assert b == [rows[k]] + b[1..];
    DetailsOfAppend([rows[k]], b[1..], docid);
    DetailsOfSnoc([], rows[k], docid);
    assert [] + [rows[k]] == [rows[k]];
  }

  function Digit(n: nat): char
    requires n < 10
  {
    "0123456789"[n]
  }

  /** The number a string of decimal digits denotes, most significant digit first. */
  function DigitsValue(s: string): nat
    requires forall k :: 0 <= k < |s| ==> '0' <= s[k] <= '9'
  {
    if |s| == 0 then 0 else DigitsValue(s[..|s| - 1]) * 10 + (s[|s| - 1] as int - '0' as int)
  }

  lemma DigitValue(d: nat)
    requires d < 10
    ensures Digit(d) as int - '0' as int == d
  {
  }

  /** The decimal spelling of `n`: a non-empty string of digits. */
  function NatToString(n: nat): (r: string)
    ensures |r| > 0
    ensures forall k :: 0 <= k < |r| ==> '0' <= r[k] <= '9'
  {
    if n < 10 then [Digit(n)] else NatToString(n / 10) + [Digit(n % 10)]
  }

  /** The spelling has no leading zero and reads back as `n`. */
  lemma {:induction false} NatToStringValue(n: nat)
    ensures NatToString(n)[0] == '0' ==> n == 0
    ensures DigitsValue(NatToString(n)) == n
  {
    if n >= 10 {
      NatToStringValue(n / 10);
      var init := NatToString(n / 10);
      var r := NatToString(n);
      assert r == init + [Digit(n % 10)];
      assert r[..|r| - 1] == init;
      assert r[0] == init[0];
      DigitValue(n % 10);
      assert DigitsValue(r) == DigitsValue(init) * 10 + n % 10;
    }
  }

  /** `truckNo.toString()`: the decimal spelling of the truck number. */
  function TruckName(truckNo: int): string {
    if truckNo < 0 then "-" + NatToString(-truckNo) else NatToString(truckNo)
  }

  /** Distinct numbers have distinct spellings. */
  lemma NatToStringInjective(m: nat, n: nat)
    ensures NatToString(m) == NatToString(n) ==> m == n
  {
    NatToStringValue(m);
    NatToStringValue(n);
  }

  /** Distinct truck numbers get distinct names, so looking a truck up by name finds the right one. */
  lemma TruckNameInjective(a: int, b: int)
    ensures TruckName(a) == TruckName(b) ==> a == b
  {
    var x, y := TruckName(a), TruckName(b);
    if a < 0 {
      assert x == "-" + NatToString(-a) && x[0] == '-' && x[1..] == NatToString(-a);
    } else {
      assert '0' <= x[0] <= '9';
    }
    if b < 0 {
      assert y == "-" + NatToString(-b) && y[0] == '-' && y[1..] == NatToString(-b);
    } else {
      assert '0' <= y[0] <= '9';
    }
    if x == y {
      if a < 0 && b < 0 {
        NatToStringInjective(-a, -b);
      } else if a >= 0 && b >= 0 {
        NatToStringInjective(a, b);
      }
    }
  }

  /** The login code of the account a legacy creator name maps to. */
  function CreatorLogin(createdBy: string): (r: string)
    ensures r == "system" <==> createdBy == "System"
    ensures r == "hmk" <==> createdBy != "System"
  {
    if createdBy != "System" then "hmk" else "system"
  }

  /** The target detail for one source detail of voucher `voucherId`. */
  function MigrateDetail(d: SourceDetail, voucherId: nat): (r: VoucherDetail)
    ensures r.voucherId == voucherId
    ensures r.status == Active <==> d.status == 1
    ensures r.amount == d.amount && r.unitPrice == d.unitPrice && r.qty == d.qty
  {
    VoucherDetail(voucherId, d.particular, d.particularNote, d.ply, d.size, d.unitPrice, d.qty,
                  d.amount, Some(d.note), if d.status == 1 then Active else Deleted)
  }

  /** The descriptive fields of a detail are carried over unchanged, the note as a present value. */
  lemma MigrateDetailCopies(d: SourceDetail, voucherId: nat)
    ensures var r := MigrateDetail(d, voucherId);
            && r.particular == d.particular && r.particularNote == d.particularNote
            && r.ply == d.ply && r.size == d.size && r.note == Some(d.note)
  {
  }

  /**
   * Which target inserts throw: `headers` holds the page positions whose
   * voucher create fails, `details` the (page position, detail index) pairs
   * whose detail create fails.
   */
  datatype Faults = Faults(headers: set<nat>, details: set<(nat, nat)>)

  /** The first of the first `n` detail inserts of document `i` that throws, or `n`. */
  function FirstDetailFault(f: Faults, i: nat, n: nat): (j: nat)
    ensures j <= n
    ensures j < n ==> (i, j) in f.details
    ensures forall k :: 0 <= k < j ==> (i, k) !in f.details
  {
    if n == 0 then 0
    else
      var p := FirstDetailFault(f, i, n - 1);
      if p < n - 1 then p else if (i, n - 1) in f.details then n - 1 else n
  }

  /**
   * The voucher create of lines 123-153: fails when the store rejects it or
   * when the creator account does not exist; otherwise resolves customer and
   * truck by name and appends the header.
   */
  function InsertHeader(s: Store, doc: SourceDocument, fails: bool): (r: Option<(Store, nat)>)
    ensures r.None? <==> fails || UserByLogin(s.users, CreatorLogin(doc.createdBy)).None?
  {
    match UserByLogin(s.users, CreatorLogin(doc.createdBy))
    case None => None
    case Some(creator) =>
      if fails then None
      else Some(CreateVoucher(s, doc.voucherId, doc.customerName, TruckName(doc.truckNo), doc.date, creator))
  }

  /** Appends the migrated form of `ds`, all linked to voucher `vid`. */
  function AppendDetails(s: Store, ds: seq<SourceDetail>, vid: nat): Store {
    s.(details := s.details + seq(|ds|, k requires 0 <= k < |ds| => MigrateDetail(ds[k], vid)))
  }

  /**
   * One iteration of the document loop for the document at page position
   * `i` with details `ds`: nothing without details, nothing when the header
   * throws, otherwise the header and the details before the first one that
   * throws (the catch sits outside the detail loop).
   */
  function MigrateDocument(s: Store, doc: SourceDocument, ds: seq<SourceDetail>, i: nat, f: Faults): Store {
    if |ds| == 0 then s
    else
      match InsertHeader(s, doc, i in f.headers)
      case None => s
      case Some((s1, vid)) => AppendDetails(s1, ds[..FirstDetailFault(f, i, |ds|)], vid)
  }

  /** The first `n` iterations of the document loop over `page`. */
  function MigratePage(s: Store, page: seq<SourceDocument>, rows: seq<SourceDetail>, f: Faults, n: nat): Store
    requires n <= |page|
  {
    if n == 0 then s
    else MigrateDocument(MigratePage(s, page, rows, f, n - 1), page[n - 1], DetailsOf(rows, page[n - 1].docid), n - 1, f)
  }

  /** Migrating `n` documents is migrating the first `n - 1` and then document `n - 1`. */
  lemma MigratePageStep(s: Store, page: seq<SourceDocument>, rows: seq<SourceDetail>, f: Faults, n: nat)
    requires 0 < n <= |page|
    ensures MigratePage(s, page, rows, f, n)
            == MigrateDocument(MigratePage(s, page, rows, f, n - 1), page[n - 1], DetailsOf(rows, page[n - 1].docid),
                               n - 1, f)
  {
  }

  /** The summary `migrateDocument` returns for a non-empty page. */
  datatype DocumentReply =
    | NoMoreVouchers
    | PageSummary(importedCount: nat, currentPage: int, totalPages: nat, remainingPages: nat, nextPage: Option<int>)

  /** Whether document `i` of the page gets a voucher. */
  predicate HeaderSucceeds(users: seq<User>, doc: SourceDocument, ds: seq<SourceDetail>, i: nat, f: Faults) {
    |ds| > 0 && i !in f.headers && UserByLogin(users, CreatorLogin(doc.createdBy)).Some?
  }

  /**
   * The body of the document loop (lines 102-183): the header, then the
   * detail inserts until the first one that throws.
   */
  method MigrateOneDocument(s: Store, doc: SourceDocument, ds: seq<SourceDetail>, i: nat, f: Faults)
    returns (r: Store)
    ensures r == MigrateDocument(s, doc, ds, i, f)
  {
    r := s;
    if |ds| > 0 {
      var header := InsertHeader(s, doc, i in f.headers);
      if header.Some? {
        var (s1, vid) := header.value;
        var j := 0;
        r := s1;
        while j < |ds| && (i, j) !in f.details
          invariant 0 <= j <= |ds|
          invariant forall k :: 0 <= k < j ==> (i, k) !in f.details
          invariant r == AppendDetails(s1, ds[..j], vid)
        {
          r := r.(details := r.details + [MigrateDetail(ds[j], vid)]);
          assert ds[..j + 1] == ds[..j] + [ds[j]];
          j := j + 1;
        }
        assert j == FirstDetailFault(f, i, |ds|);
      }
    }
  }

  /** The document loop (lines 101-184) over the fetched page. */
  method MigrateFetched(s: Store, page: seq<SourceDocument>, rows: seq<SourceDetail>, f: Faults)
    returns (r: Store)
    ensures r == MigratePage(s, page, rows, f, |page|)
  {
    r := s;
    var i := 0;
    while i < |page|
      invariant 0 <= i <= |page|
      invariant r == MigratePage(s, page, rows, f, i)
    {
      r := MigrateOneDocument(r, page[i], DetailsOf(rows, page[i].docid), i, f);
      i := i + 1;
      MigratePageStep(s, page, rows, f, i);
    }
  }

  /**
   * `migrateDocument`: count the source documents, fetch one page of them and
   * migrate each document with its details, isolating failures per document.
   */
  method MigrateDocuments(s: Store, c: Connection, reachable: bool, src: Source, page: int, rowPerPage: int,
                          f: Faults)
    returns (r: Step<DocumentReply>)
    ensures !reachable ==> r == Step(s, c, Err(if c.Closed? then SourceUnavailable else QueryFailed))
    ensures reachable ==> r.conn == Open
    ensures reachable && (rowPerPage < 0 || Offset(page, rowPerPage) < 0)
            ==> r.reply == Err(QueryFailed) && r.store == s
    ensures r.reply == Ok(NoMoreVouchers) ==> r.store == s
    ensures r.reply.Ok? && r.reply.value.PageSummary? ==>
              && rowPerPage > 0 && Offset(page, rowPerPage) >= 0
              && var fetched := Slice(src.documents, Offset(page, rowPerPage), rowPerPage);
                 && |fetched| > 0
                 && r.store == MigratePage(s, fetched, src.details, f, |fetched|)
                 && var total := CeilDiv(|src.documents|, rowPerPage);
                    r.reply.value == PageSummary(|fetched|, page, total, RemainingPages(total, page), NextPage(total, page))
    ensures reachable && rowPerPage >= 0 && Offset(page, rowPerPage) >= 0 ==>
              var fetched := Slice(src.documents, Offset(page, rowPerPage), rowPerPage);
              && (|fetched| == 0 ==> r.reply == Ok(NoMoreVouchers))
              && (|fetched| > 0 ==> r.reply.Ok? && r.reply.value.PageSummary?)
  {
    var conn := ConnectAndQuery(c, reachable);
    if conn.Err? {
      return Step(s, c, Err(conn.error));
    }
    var totalCount := |src.documents|;
    var offset := Offset(page, rowPerPage);
    if rowPerPage < 0 || offset < 0 {
      return Step(s, Open, Err(QueryFailed));
    }
    var fetched := Slice(src.documents, offset, rowPerPage);
    if |fetched| == 0 {
      return Step(s, Open, Ok(NoMoreVouchers));
    }
    var cur := MigrateFetched(s, fetched, src.details, f);
    var totalPages := CeilDiv(totalCount, rowPerPage);
    var remaining := totalPages - page;
    r := Step(cur, Open, Ok(PageSummary(|fetched|, page, totalPages,
                                        if remaining > 0 then remaining else 0,
                                        if remaining > 0 then Some(page + 1) else None)));
  }
}

/** Properties of the document migration, stated over the loop's reference definition. */
module MigrationProperties {
  import opened Wrappers
  import opened Store
  import opened Pagination
  import opened Migration

  /**
   * One document either leaves the store as it was, or adds exactly one
   * voucher for it (customer, truck and creator resolved by name) followed by
   * its details up to the first failing insert, all linked to that voucher.
   */
  lemma MigrateDocumentEffect(s: Store, doc: SourceDocument, ds: seq<SourceDetail>, i: nat, f: Faults)
    ensures var r := MigrateDocument(s, doc, ds, i, f);
            && r.users == s.users
            && s.customers <= r.customers && s.trucks <= r.trucks
            && (!HeaderSucceeds(s.users, doc, ds, i, f) ==> r == s)
            && (HeaderSucceeds(s.users, doc, ds, i, f) ==>
                  var vid := |s.vouchers|;
                  var n := FirstDetailFault(f, i, |ds|);
                  && |r.vouchers| == vid + 1 && r.vouchers[..vid] == s.vouchers
                  && r.vouchers[vid].voucherNumber == doc.voucherId
                  && r.vouchers[vid].date == doc.date
                  && r.vouchers[vid].status == Active
                  && r.vouchers[vid].customerId < |r.customers|
                  && r.customers[r.vouchers[vid].customerId] == doc.customerName
                  && r.vouchers[vid].truckId < |r.trucks|
                  && r.trucks[r.vouchers[vid].truckId] == TruckName(doc.truckNo)
                  && r.vouchers[vid].createdById < |r.users|
                  && r.users[r.vouchers[vid].createdById].userId == CreatorLogin(doc.createdBy)
                  && |r.details| == |s.details| + n
                  && r.details[..|s.details|] == s.details
                  && forall k :: 0 <= k < n ==> r.details[|s.details| + k] == MigrateDetail(ds[k], vid))
  {
    var r := MigrateDocument(s, doc, ds, i, f);
    if HeaderSucceeds(s.users, doc, ds, i, f) {
      var creator := UserByLogin(s.users, CreatorLogin(doc.createdBy)).value;
      var (s1, vid) := CreateVoucher(s, doc.voucherId, doc.customerName, TruckName(doc.truckNo), doc.date, creator);
      assert r == AppendDetails(s1, ds[..FirstDetailFault(f, i, |ds|)], vid);
      assert r.vouchers == s1.vouchers;
      assert r.details[..|s.details|] == s.details;
    }
  }

  /**
   * The counting view of one document: `r` is `s` with one voucher more,
   * numbered after the document, when its header insert succeeds, and with
   * the details up to the first failing insert; earlier rows are kept.
   */
  ghost predicate Appended(s: Store, r: Store, doc: SourceDocument, ds: seq<SourceDetail>, i: nat, f: Faults) {
    var ok := HeaderSucceeds(s.users, doc, ds, i, f);
    && r.users == s.users
    && s.customers <= r.customers && s.trucks <= r.trucks
    && |r.vouchers| == |s.vouchers| + (if ok then 1 else 0)
    && r.vouchers[..|s.vouchers|] == s.vouchers
    && (ok ==> r.vouchers[|s.vouchers|].voucherNumber == doc.voucherId)
    && |r.details| == |s.details| + (if ok then FirstDetailFault(f, i, |ds|) else 0)
    && r.details[..|s.details|] == s.details
  }

  lemma MigrateDocumentAppends(s: Store, r: Store, doc: SourceDocument, ds: seq<SourceDetail>, i: nat, f: Faults)
    requires r == MigrateDocument(s, doc, ds, i, f)
    ensures Appended(s, r, doc, ds, i, f)
  {
    MigrateDocumentEffect(s, doc, ds, i, f);
  }

  /**
   * A document never leaves a detail without its voucher, nor a second row
   * for a name: migrating it into a valid `s` gives a valid `r`.
   */
  lemma MigrateDocumentValid(s: Store, r: Store, doc: SourceDocument, ds: seq<SourceDetail>, i: nat, f: Faults)
    requires Valid(s) && r == MigrateDocument(s, doc, ds, i, f)
    ensures Valid(r) && r.users == s.users
  {
    if HeaderSucceeds(s.users, doc, ds, i, f) {
      var creator := UserByLogin(s.users, CreatorLogin(doc.createdBy)).value;
      var (s1, vid) := CreateVoucher(s, doc.voucherId, doc.customerName, TruckName(doc.truckNo), doc.date, creator);
      CreateVoucherValid(s, doc.voucherId, doc.customerName, TruckName(doc.truckNo), doc.date, creator);
      assert r == AppendDetails(s1, ds[..FirstDetailFault(f, i, |ds|)], vid);
      assert forall d :: d in r.details ==> d in s1.details || d.voucherId == vid;
    }
  }

  /**
   * Migrating a page keeps the store valid: every detail belongs to an
   * existing voucher, and customers and trucks stay one row per name however
   * many documents share a name.
   */
  lemma {:induction false} MigratePageValid(s: Store, page: seq<SourceDocument>, rows: seq<SourceDetail>,
                                            f: Faults, n: nat)
    requires Valid(s) && n <= |page|
    ensures Valid(MigratePage(s, page, rows, f, n))
    ensures MigratePage(s, page, rows, f, n).users == s.users
  {
    if n > 0 {
      MigratePageValid(s, page, rows, f, n - 1);
      MigratePageStepValid(s, page, rows, f, n);
    }
  }

  /** One more document of the page keeps a valid store valid. */
  lemma MigratePageStepValid(s: Store, page: seq<SourceDocument>, rows: seq<SourceDetail>, f: Faults, n: nat)
    requires 0 < n <= |page| && Valid(MigratePage(s, page, rows, f, n - 1))
    ensures Valid(MigratePage(s, page, rows, f, n))
    ensures MigratePage(s, page, rows, f, n).users == MigratePage(s, page, rows, f, n - 1).users
  {
    var prev, next := MigratePage(s, page, rows, f, n - 1), MigratePage(s, page, rows, f, n);
    var doc := page[n - 1];
    var ds := DetailsOf(rows, doc.docid);
    MigratePageStep(s, page, rows, f, n);
    MigrateDocumentValid(prev, next, doc, ds, n - 1, f);
  }

  /** After a page, each customer and truck name has at most one row. */
  lemma MigratePageNamesUnique(s: Store, page: seq<SourceDocument>, rows: seq<SourceDetail>, f: Faults,
                               name: string)
    requires Valid(s)
    ensures Occurrences(MigratePage(s, page, rows, f, |page|).customers, name) <= 1
    ensures Occurrences(MigratePage(s, page, rows, f, |page|).trucks, name) <= 1
  {
    var r := MigratePage(s, page, rows, f, |page|);
    MigratePageValid(s, page, rows, f, |page|);
    DistinctOccurrences(r.customers, name);
    DistinctOccurrences(r.trucks, name);
  }

  /** The voucher numbers of the documents among the first `n` that get a voucher. */
  function MigratedNumbers(users: seq<User>, page: seq<SourceDocument>, rows: seq<SourceDetail>, f: Faults,
                           n: nat): seq<string>
    requires n <= |page|
  {
    if n == 0 then []
    else
      MigratedNumbers(users, page, rows, f, n - 1)
      + (if HeaderSucceeds(users, page[n - 1], DetailsOf(rows, page[n - 1].docid), n - 1, f)
         then [page[n - 1].voucherId] else [])
  }

  /** How many details the first `n` documents of the page get inserted. */
  function MigratedDetailCount(users: seq<User>, page: seq<SourceDocument>, rows: seq<SourceDetail>, f: Faults,
                               n: nat): nat
    requires n <= |page|
  {
    if n == 0 then 0
    else
      var ds := DetailsOf(rows, page[n - 1].docid);
      MigratedDetailCount(users, page, rows, f, n - 1)
      + (if HeaderSucceeds(users, page[n - 1], ds, n - 1, f) then FirstDetailFault(f, n - 1, |ds|) else 0)
  }

  /**
   * Per-document isolation over a whole page: the vouchers appended are
   * exactly those of the documents with details whose header insert
   * succeeded, in page order, whatever failed before or after them; the
   * details appended are each such document's details up to its first
   * failing insert. Nothing that existed before is changed.
   */
  lemma {:induction false} MigratePageAppends(s: Store, page: seq<SourceDocument>, rows: seq<SourceDetail>,
                                              f: Faults, n: nat)
    requires n <= |page|
    ensures var r := MigratePage(s, page, rows, f, n);
            var numbers := MigratedNumbers(s.users, page, rows, f, n);
            && r.users == s.users
            && |r.vouchers| == |s.vouchers| + |numbers|
            && r.vouchers[..|s.vouchers|] == s.vouchers
            && (forall k :: 0 <= k < |numbers| ==> r.vouchers[|s.vouchers| + k].voucherNumber == numbers[k])
            && |r.details| == |s.details| + MigratedDetailCount(s.users, page, rows, f, n)
            && r.details[..|s.details|] == s.details
            && s.customers <= r.customers && s.trucks <= r.trucks
  {
    if n > 0 {
      MigratePageAppends(s, page, rows, f, n - 1);
      MigratePageStepAppends(s, page, rows, f, n);
      var prev := MigratePage(s, page, rows, f, n - 1);
      var r := MigratePage(s, page, rows, f, n);
      assert r.vouchers[..|s.vouchers|] == prev.vouchers[..|s.vouchers|];
      assert r.details[..|s.details|] == prev.details[..|s.details|];
      PrefixTrans(s.customers, prev.customers, r.customers);
      PrefixTrans(s.trucks, prev.trucks, r.trucks);
    }
  }

  lemma PrefixTrans(a: seq<string>, b: seq<string>, c: seq<string>)
    requires a <= b && b <= c
    ensures a <= c
  {
    assert c[..|a|] == b[..|a|];
  }

  /** One more document of the page appends to the store as `Appended` says. */
  lemma MigratePageStepAppends(s: Store, page: seq<SourceDocument>, rows: seq<SourceDetail>, f: Faults, n: nat)
    requires 0 < n <= |page|
    ensures Appended(MigratePage(s, page, rows, f, n - 1), MigratePage(s, page, rows, f, n),
                     page[n - 1], DetailsOf(rows, page[n - 1].docid), n - 1, f)
  {
    var prev := MigratePage(s, page, rows, f, n - 1);
    var ds := DetailsOf(rows, page[n - 1].docid);
    MigrateDocumentAppends(prev, MigrateDocument(prev, page[n - 1], ds, n - 1, f), page[n - 1], ds, n - 1, f);
    MigratePageStep(s, page, rows, f, n);
  }

  lemma SecondOfThreeNumbers(users: seq<User>, page: seq<SourceDocument>, rows: seq<SourceDetail>)
    requires |page| == 3
    requires forall i :: 0 <= i < 3 ==> |DetailsOf(rows, page[i].docid)| > 0
    requires forall i :: 0 <= i < 3 ==> UserByLogin(users, CreatorLogin(page[i].createdBy)).Some?
    ensures MigratedNumbers(users, page, rows, Faults({1}, {}), 3) == [page[0].voucherId, page[2].voucherId]
  {
    var f := Faults({1}, {});
    assert HeaderSucceeds(users, page[0], DetailsOf(rows, page[0].docid), 0, f);
    assert !HeaderSucceeds(users, page[1], DetailsOf(rows, page[1].docid), 1, f);
    assert HeaderSucceeds(users, page[2], DetailsOf(rows, page[2].docid), 2, f);
    assert MigratedNumbers(users, page, rows, f, 1) == [page[0].voucherId];
    assert MigratedNumbers(users, page, rows, f, 2) == [page[0].voucherId];
  }

  /**
   * The isolation example: of three documents whose second header insert
   * throws, the first and the third still get their vouchers, in order.
   */
  lemma SecondOfThreeFails(s: Store, page: seq<SourceDocument>, rows: seq<SourceDetail>)
    requires |page| == 3
    requires forall i :: 0 <= i < 3 ==> |DetailsOf(rows, page[i].docid)| > 0
    requires forall i :: 0 <= i < 3 ==> UserByLogin(s.users, CreatorLogin(page[i].createdBy)).Some?
    ensures var r := MigratePage(s, page, rows, Faults({1}, {}), |page|);
            && |r.vouchers| == |s.vouchers| + 2
            && r.vouchers[|s.vouchers|].voucherNumber == page[0].voucherId
            && r.vouchers[|s.vouchers| + 1].voucherNumber == page[2].voucherId
  {
    var f := Faults({1}, {});
    var numbers := MigratedNumbers(s.users, page, rows, f, |page|);
    SecondOfThreeNumbers(s.users, page, rows);
    assert numbers == [page[0].voucherId, page[2].voucherId];
    MigratePageAppends(s, page, rows, f, |page|);
    var r := MigratePage(s, page, rows, f, |page|);
    assert r.vouchers[|s.vouchers| + 0].voucherNumber == numbers[0];
    assert r.vouchers[|s.vouchers| + 1].voucherNumber == numbers[1];
  }

  /** When every header insert of a page throws, the store keeps its vouchers and details. */
  lemma AllHeadersFailing(s: Store, page: seq<SourceDocument>, rows: seq<SourceDetail>, f: Faults)
    requires forall i: nat :: i < |page| ==> i in f.headers
    ensures MigratePage(s, page, rows, f, |page|).vouchers == s.vouchers
    ensures MigratePage(s, page, rows, f, |page|).details == s.details
  {
    NoneMigrate(s.users, page, rows, f, |page|, |page|);
    MigratePageAppends(s, page, rows, f, |page|);
  }

  lemma {:induction false} NoneMigrate(users: seq<User>, page: seq<SourceDocument>, rows: seq<SourceDetail>,
                                       f: Faults, n: nat, limit: nat)
    requires n <= |page| <= limit
    requires forall i: nat :: i < limit ==> i in f.headers
    ensures MigratedNumbers(users, page, rows, f, n) == []
    ensures MigratedDetailCount(users, page, rows, f, n) == 0
  {
    if n > 0 {
      NoneMigrate(users, page, rows, f, n - 1, limit);
      assert n - 1 in f.headers;
    }
  }

  /** The worked example: 25 documents in pages of 10. */
  lemma TwentyFiveInPagesOfTen()
    ensures CeilDiv(25, 10) == 3
    ensures RemainingPages(3, 1) == 2 && NextPage(3, 1) == Some(2)
    ensures RemainingPages(3, 3) == 0 && NextPage(3, 3) == None
    ensures forall xs: seq<int> :: |xs| == 25 ==> Slice(xs, Offset(3, 10), 10) == xs[20..]
  {
  }
}

=== FILE: pagination.dfy ===
/**
 * Offset pagination shared by the document migration and the voucher list:
 * the offset of a page, the slice a LIMIT/OFFSET (or skip/take) query
 * returns, the page count `Math.ceil(total / rowPerPage)` and the
 * remaining-pages summary.
 */
module Pagination {
  import opened Wrappers

  /** `Math.ceil(a / b)` for a non-negative count and a positive page size. */
  function CeilDiv(a: nat, b: nat): (q: nat)
    requires b > 0
    ensures q * b >= a
    ensures q > 0 ==> (q - 1) * b < a
  {
    var q := (a + b - 1) / b;
    var rem := (a + b - 1) % b;
    assert a + b - 1 == q * b + rem;
    q
  }

  /** `(page - 1) * rowPerPage`: the number of rows before the page. */
  function Offset(page: int, rowPerPage: int): int {
    (page - 1) * rowPerPage
  }

  function Min(a: int, b: int): int {
    if a <= b then a else b
  }

  /** The rows a `LIMIT limit OFFSET offset` query returns, in query order. */
  function Slice<T>(xs: seq<T>, offset: nat, limit: nat): (r: seq<T>)
    ensures |r| <= limit
    ensures offset < |xs| && limit > 0 <==> |r| > 0
    ensures forall k :: 0 <= k < |r| ==> offset + k < |xs| && r[k] == xs[offset + k]
  {
    if offset >= |xs| then []
    else if offset + limit >= |xs| then xs[offset..]
    else xs[offset..offset + limit]
  }

  /** `max(totalPages - page, 0)`. */
  function RemainingPages(totalPages: nat, page: int): (r: nat)
    ensures r as int >= totalPages - page
    ensures r > 0 ==> r as int == totalPages - page
  {
    if totalPages - page > 0 then totalPages - page else 0
  }

  /** `page + 1` while pages remain, otherwise null. */
  function NextPage(totalPages: nat, page: int): (r: Option<int>)
    ensures r.Some? ==> r.value == page + 1
  {
    if totalPages - page > 0 then Some(page + 1) else None
  }

  /** There is a next page exactly when the summary reports remaining pages. */
  lemma NextPageIffRemaining(totalPages: nat, page: int)
    ensures NextPage(totalPages, page).Some? <==> RemainingPages(totalPages, page) > 0
    ensures NextPage(totalPages, page).Some? <==> page < totalPages
  {
  }

  lemma MulMonotone(a: int, b: int, n: nat)
    requires a <= b
    ensures a * n <= b * n
  {
  }

  /**
   * For a page index of at least 1, the page holds rows exactly when it is
   * one of the `CeilDiv(total, rowPerPage)` pages.
   */
  lemma PageNonEmptyIff<T>(xs: seq<T>, page: int, rowPerPage: nat)
    requires page >= 1 && rowPerPage > 0
    ensures |Slice(xs, Offset(page, rowPerPage), rowPerPage)| > 0
            <==> page <= CeilDiv(|xs|, rowPerPage)
  {
    var q := CeilDiv(|xs|, rowPerPage);
    if page <= q {
      MulMonotone(page - 1, q - 1, rowPerPage);
    } else {
      MulMonotone(q, page - 1, rowPerPage);
    }
  }

  /** A next page, when reported, is never empty: following it makes progress. */
  lemma NextPageNonEmpty<T>(xs: seq<T>, page: int, rowPerPage: nat)
    requires page >= 1 && rowPerPage > 0
    requires NextPage(CeilDiv(|xs|, rowPerPage), page).Some?
    ensures |Slice(xs, Offset(page + 1, rowPerPage), rowPerPage)| > 0
  {
    PageNonEmptyIff(xs, page + 1, rowPerPage);
  }

  /** Pages 1..n fetched one after another. */
  function PagesUpTo<T>(xs: seq<T>, rowPerPage: nat, n: nat): seq<T>
    requires rowPerPage > 0
  {
    if n == 0 then [] else PagesUpTo(xs, rowPerPage, n - 1) + Slice(xs, Offset(n, rowPerPage), rowPerPage)
  }

  /** Fetching pages 1..n in order yields the first n * rowPerPage rows, each once. */
  lemma {:induction false} PagesUpToPrefix<T>(xs: seq<T>, rowPerPage: nat, n: nat)
    requires rowPerPage > 0
    ensures PagesUpTo(xs, rowPerPage, n) == xs[..Min(n * rowPerPage, |xs|)]
  {
    if n > 0 {
      PagesUpToPrefix(xs, rowPerPage, n - 1);
      var off: nat := (n - 1) * rowPerPage;
      var lo, hi := Min(off, |xs|), Min(off + rowPerPage, |xs|);
      assert n * rowPerPage == off + rowPerPage;
      assert Offset(n, rowPerPage) == off;
      var page := Slice(xs, off, rowPerPage);
      assert PagesUpTo(xs, rowPerPage, n) == PagesUpTo(xs, rowPerPage, n - 1) + page;
      SliceWindow(xs, off, rowPerPage);
      assert xs[..lo] + xs[lo..hi] == xs[..hi];
    }
  }

  /**
   * A page is the window of rows between its offset and its end, both
   * clipped to the table: a full `limit` rows while the table lasts, the
   * remainder on the last page.
   */
  lemma SliceWindow<T>(xs: seq<T>, offset: nat, limit: nat)
    ensures Slice(xs, offset, limit) == xs[Min(offset, |xs|)..Min(offset + limit, |xs|)]
    ensures offset < |xs| ==> |Slice(xs, offset, limit)| == Min(limit, |xs| - offset)
  {
  }

  /**
   * Resuming with `nextPage` from page 1 until it is null visits every row
   * exactly once and in order.
   */
  lemma AllPagesCoverSource<T>(xs: seq<T>, rowPerPage: nat)
    requires rowPerPage > 0
    ensures PagesUpTo(xs, rowPerPage, CeilDiv(|xs|, rowPerPage)) == xs
  {
    PagesUpToPrefix(xs, rowPerPage, CeilDiv(|xs|, rowPerPage));
  }
}

=== FILE: ranking.dfy ===
/**
 * The two list idioms the dashboard is built from: accumulating into a
 * plain object keyed by name (`acc[k] = (acc[k] || 0) + delta`, kept as an
 * association list in insertion order, which is the order
 * `Object.entries` reports), and `sort((a, b) => b.value - a.value).slice(0, 3)`.
 */
module Ranking {
  import opened Wrappers
  import opened Pagination

  datatype Entry<K> = Entry(key: K, value: int)

  // -------------------------------------------------------------- accumulator

  /** `acc[k] || 0`: the value under `k`, or 0 when the key is absent. */
  function Get<K(==,!new)>(acc: seq<Entry<K>>, k: K): int {
    if |acc| == 0 then 0 else if acc[0].key == k then acc[0].value else Get(acc[1..], k)
  }

  function KeysOf<K(==,!new)>(acc: seq<Entry<K>>): set<K> {
    if |acc| == 0 then {} else {acc[0].key} + KeysOf(acc[1..])
  }

  ghost predicate DistinctKeys<K>(acc: seq<Entry<K>>) {
    forall i, j :: 0 <= i < j < |acc| ==> acc[i].key != acc[j].key
  }

  /** `acc[k] = (acc[k] || 0) + delta`: update in place, or append a new key. */
  function Bump<K(==,!new)>(acc: seq<Entry<K>>, k: K, delta: int): (r: seq<Entry<K>>)
    ensures Get(r, k) == Get(acc, k) + delta
    ensures forall k' :: k' != k ==> Get(r, k') == Get(acc, k')
    ensures KeysOf(r) == KeysOf(acc) + {k}
    ensures DistinctKeys(acc) ==> DistinctKeys(r)
  {
    if |acc| == 0 then [Entry(k, delta)]
    else if acc[0].key == k then
      assert acc[1..] == ([Entry(k, acc[0].value + delta)] + acc[1..])[1..];
      [Entry(k, acc[0].value + delta)] + acc[1..]
    else
      var rest := Bump(acc[1..], k, delta);
      var r := [acc[0]] + rest;
      assert r[1..] == rest;
      assert DistinctKeys(acc) ==> DistinctKeys(r) by {
        if DistinctKeys(acc) {
          KeysOfMembers(acc[1..]);
          ConsDistinct(acc[0], rest);
        }
      }
      r
  }

  lemma {:induction false} KeysOfMembers<K(!new)>(acc: seq<Entry<K>>)
    ensures forall i :: 0 <= i < |acc| ==> acc[i].key in KeysOf(acc)
    ensures forall k :: k in KeysOf(acc) ==> exists i :: 0 <= i < |acc| && acc[i].key == k
  {
    if |acc| > 0 {
      KeysOfMembers(acc[1..]);
      forall k | k in KeysOf(acc)
        ensures exists i :: 0 <= i < |acc| && acc[i].key == k
      {
        if k != acc[0].key {
          var i :| 0 <= i < |acc[1..]| && acc[1..][i].key == k;
          assert acc[i + 1].key == k;
        }
      }
    }
  }

  /** Putting an entry whose key is new in front keeps the keys distinct. */
  lemma ConsDistinct<K(!new)>(x: Entry<K>, ys: seq<Entry<K>>)
    requires DistinctKeys(ys) && x.key !in KeysOf(ys)
    ensures DistinctKeys([x] + ys)
  {
    KeysOfMembers(ys);
    var r := [x] + ys;
    forall i, j | 0 <= i < j < |r|
      ensures r[i].key != r[j].key
    {
      assert r[j] == ys[j - 1];
      if i > 0 {
        assert r[i] == ys[i - 1];
      }
    }
  }

  /** In an association list with distinct keys, each entry's value is what `Get` reads. */
  lemma {:induction false} GetEntry<K(!new)>(acc: seq<Entry<K>>, i: nat)
    requires DistinctKeys(acc) && i < |acc|
    ensures Get(acc, acc[i].key) == acc[i].value
  {
    if i > 0 {
      assert acc[1..][i - 1] == acc[i];
      GetEntry(acc[1..], i - 1);
    }
  }

  /** Any entry of an association list with distinct keys is what `Get` reads under its key. */
  lemma GetMember<K(!new)>(acc: seq<Entry<K>>, e: Entry<K>)
    requires DistinctKeys(acc) && e in multiset(acc)
    ensures Get(acc, e.key) == e.value
  {
    var j :| 0 <= j < |acc| && acc[j] == e;
    GetEntry(acc, j);
  }

  /** The keyed accumulation `forEach(x => acc[key(x)] = (acc[key(x)] || 0) + delta(x))`; `None` keys are skipped. */
  function Tally<T, K(==,!new)>(xs: seq<T>, key: T -> Option<K>, delta: T -> int): seq<Entry<K>> {
    if |xs| == 0 then []
    else
      var acc := Tally(xs[..|xs| - 1], key, delta);
      match key(xs[|xs| - 1])
      case None => acc
      case Some(k) => Bump(acc, k, delta(xs[|xs| - 1]))
  }

  /** Reference definition: the sum of `delta` over the elements whose key is `k`. */
  function SumWhere<T, K(==,!new)>(xs: seq<T>, key: T -> Option<K>, delta: T -> int, k: K): int {
    if |xs| == 0 then 0
    else SumWhere(xs[..|xs| - 1], key, delta, k) + (if key(xs[|xs| - 1]) == Some(k) then delta(xs[|xs| - 1]) else 0)
  }

  /**
   * The accumulation holds one entry per key that occurs, and under each key
   * the sum of the deltas of the elements with that key.
   */
  lemma {:induction false} TallyCorrect<T, K(!new)>(xs: seq<T>, key: T -> Option<K>, delta: T -> int)
    ensures DistinctKeys(Tally(xs, key, delta))
    ensures forall k :: Get(Tally(xs, key, delta), k) == SumWhere(xs, key, delta, k)
    ensures forall k :: k in KeysOf(Tally(xs, key, delta)) <==> exists i :: 0 <= i < |xs| && key(xs[i]) == Some(k)
  {
    if |xs| > 0 {
      var init := xs[..|xs| - 1];
      TallyCorrect(init, key, delta);
      forall k
        ensures k in KeysOf(Tally(xs, key, delta)) <==> exists i :: 0 <= i < |xs| && key(xs[i]) == Some(k)
      {
        if exists i :: 0 <= i < |xs| && key(xs[i]) == Some(k) {
          var i :| 0 <= i < |xs| && key(xs[i]) == Some(k);
          if i < |xs| - 1 {
            assert init[i] == xs[i];
          }
        }
        if exists i :: 0 <= i < |init| && key(init[i]) == Some(k) {
          var i :| 0 <= i < |init| && key(init[i]) == Some(k);
          assert xs[i] == init[i];
        }
      }
    }
  }

  // ------------------------------------------------------------------ ranking

  ghost predicate NonIncreasing<K>(xs: seq<Entry<K>>) {
    forall i, j :: 0 <= i < j < |xs| ==> xs[i].value >= xs[j].value
  }

  /** Putting an entry no smaller than the head in front keeps a list sorted. */
  lemma ConsSorted<K>(x: Entry<K>, ys: seq<Entry<K>>)
    requires NonIncreasing(ys) && (|ys| > 0 ==> x.value >= ys[0].value)
    ensures NonIncreasing([x] + ys)
  {
    var r := [x] + ys;
    forall i, j | 0 <= i < j < |r|
      ensures r[i].value >= r[j].value
    {
      assert r[j] == ys[j - 1];
      if i > 0 {
        assert r[i] == ys[i - 1];
      }
    }
  }

  /** Inserts `e` after every entry not smaller, so equal values keep their order. */
  function Insert<K>(e: Entry<K>, xs: seq<Entry<K>>): (r: seq<Entry<K>>)
    requires NonIncreasing(xs)
    ensures NonIncreasing(r)
    ensures multiset(r) == multiset(xs) + multiset{e}
    ensures |r| == |xs| + 1 && (r[0] == e || (|xs| > 0 && r[0] == xs[0]))
  {
    if |xs| == 0 then [e]
    else if xs[0].value >= e.value then
      var tail := Insert(e, xs[1..]);
      ConsSorted(xs[0], tail);
      assert xs == [xs[0]] + xs[1..];
      [xs[0]] + tail
    else
      ConsSorted(e, xs);
      [e] + xs
  }

  /** The comparator sort by non-increasing value; `Insert` keeps equal values in input order. */
  function SortDesc<K>(xs: seq<Entry<K>>): (r: seq<Entry<K>>)
    ensures NonIncreasing(r)
    ensures multiset(r) == multiset(xs)
  {
    if |xs| == 0 then []
    else
      assert xs == xs[..|xs| - 1] + [xs[|xs| - 1]];
      Insert(xs[|xs| - 1], SortDesc(xs[..|xs| - 1]))
  }

  /** In a sorted list, whatever lies beyond a prefix is no larger than the prefix. */
  lemma PrefixDominates<K>(sorted: seq<Entry<K>>, m: nat)
    requires NonIncreasing(sorted) && m <= |sorted|
    ensures forall e, i :: e in multiset(sorted) - multiset(sorted[..m]) && 0 <= i < m ==> sorted[i].value >= e.value
  {
    var rest := sorted[m..];
    assert sorted == sorted[..m] + rest;
    assert multiset(sorted) - multiset(sorted[..m]) == multiset(rest);
    forall e: Entry<K>, i | e in multiset(rest) && 0 <= i < m
      ensures sorted[i].value >= e.value
    {
      assert e in rest;
      var j :| 0 <= j < |rest| && rest[j] == e;
      assert sorted[m + j] == e;
    }
  }

  /** A prefix of a sorted permutation of `xs` is sorted, drawn from `xs` and dominates the rest of `xs`. */
  lemma SortedPrefix<K>(xs: seq<Entry<K>>, sorted: seq<Entry<K>>, m: nat)
    requires NonIncreasing(sorted) && multiset(sorted) == multiset(xs) && m <= |xs|
    ensures |sorted| == |xs|
    ensures NonIncreasing(sorted[..m])
    ensures multiset(sorted[..m]) <= multiset(xs)
    ensures forall e, i :: e in multiset(xs) - multiset(sorted[..m]) && 0 <= i < m ==> sorted[..m][i].value >= e.value
  {
    assert |multiset(sorted)| == |multiset(xs)|;
    PrefixDominates(sorted, m);
    assert sorted == sorted[..m] + sorted[m..];
  }

  /**
   * `.sort(...).slice(0, 3)`: at most three entries, largest first, taken
   * from the input, and none of the entries left out is larger than any
   * entry kept.
   */
  function Top3<K>(xs: seq<Entry<K>>): (r: seq<Entry<K>>)
    ensures |r| == Min(3, |xs|)
    ensures NonIncreasing(r)
    ensures multiset(r) <= multiset(xs)
    ensures forall e, i :: e in multiset(xs) - multiset(r) && 0 <= i < |r| ==> r[i].value >= e.value
  {
    var sorted := SortDesc(xs);
    SortedPrefix(xs, sorted, Min(3, |xs|));
    sorted[..Min(3, |xs|)]
  }

  /**
   * An entry of the input is either among the top three or no larger than
   * each of them, and it is among them whenever fewer than three are kept.
   */
  lemma Top3Covers<K>(xs: seq<Entry<K>>, e: Entry<K>)
    requires e in xs
    ensures var r := Top3(xs);
            && (e in r || forall i :: 0 <= i < |r| ==> r[i].value >= e.value)
            && (|r| < 3 ==> e in r)
  {
    var r := Top3(xs);
    assert e in multiset(xs);
    if |r| < 3 {
      var sorted := SortDesc(xs);
      assert r == sorted[..|xs|] == sorted;
      assert e in multiset(r);
    }
    if e !in r {
      assert e !in multiset(r);
      assert e in multiset(xs) - multiset(r);
    }
  }
}

=== FILE: store.dfy ===
/**
 * The target document store, reduced to the collections the core writes.
 * Every generated id is the position of the row in its collection, so a
 * reference is a natural number and "created later" means "larger id".
 */
module Store {
  import opened Wrappers

  datatype Status = Active | Deleted

  /** A target account. `userId` is the login code, unique per store. */
  datatype User = User(
    name: string,
    email: string,
    phone: string,
    passwordHash: string,
    userId: string,
    createdById: Option<nat>)

  /** A voucher header; customer, truck and creator are ids into the store. */
  datatype Voucher = Voucher(
    voucherNumber: string,
    customerId: nat,
    truckId: nat,
    date: int,
    createdById: nat,
    status: Status)

  /** A voucher line item, linked to its header by `voucherId`. */
  datatype VoucherDetail = VoucherDetail(
    voucherId: nat,
    particular: string,
    particularNote: string,
    ply: string,
    size: string,
    unitPrice: int,
    qty: int,
    amount: int,
    note: Option<string>,
    status: Status)

  /** Customers and trucks carry nothing but their natural-key name. */
  datatype Store = Store(
    users: seq<User>,
    customers: seq<string>,
    trucks: seq<string>,
    vouchers: seq<Voucher>,
    details: seq<VoucherDetail>)

  /**
   * At most one row per name: the uniqueness constraint on Customer and Truck.
   * Each row's name differs from every name before it; DistinctPairwise
   * shows this is the same as no two positions sharing a name.
   */
  ghost predicate Distinct(names: seq<string>) {
    |names| == 0 || (Distinct(names[..|names| - 1]) && names[|names| - 1] !in names[..|names| - 1])
  }

  /** Every reference in the store points at an existing row. */
  ghost predicate WellLinked(s: Store) {
    && (forall v :: v in s.vouchers ==>
          v.customerId < |s.customers| && v.truckId < |s.trucks| && v.createdById < |s.users|)
    && (forall d :: d in s.details ==> d.voucherId < |s.vouchers|)
  }

  /** No two accounts share a login code: the unique `userId` constraint. */
  ghost predicate LoginsUnique(users: seq<User>) {
    forall i, j :: 0 <= i < j < |users| ==> users[i].userId != users[j].userId
  }

  ghost predicate Valid(s: Store) {
    Distinct(s.customers) && Distinct(s.trucks) && WellLinked(s)
  }

  /** Number of rows carrying `name`. */
  function Occurrences(names: seq<string>, name: string): nat {
    if |names| == 0 then 0
    else Occurrences(names[..|names| - 1], name) + (if names[|names| - 1] == name then 1 else 0)
  }

  /** The first row whose name is `name`: a `findUnique` on the name key. */
  function IndexOf(names: seq<string>, name: string): (r: Option<nat>)
    ensures r.None? <==> name !in names
    ensures r.Some? ==> r.value < |names| && names[r.value] == name && name !in names[..r.value]
  {
    if |names| == 0 then None
    else if names[0] == name then Some(0)
    else
      match IndexOf(names[1..], name)
      case None => None
      case Some(k) =>
        assert names[1..][..k] == names[1..k + 1];
        Some(k + 1)
  }

  /**
   * `connectOrCreate` on a name: the id of the existing row, or of a row
   * appended for it. Returns the new collection and the id.
   */
  function FindOrCreate(names: seq<string>, name: string): (r: (seq<string>, nat))
    ensures r.1 < |r.0| && r.0[r.1] == name
    ensures name in names ==> r.0 == names
    ensures name !in names ==> r.0 == names + [name] && r.1 == |names|
  {
    match IndexOf(names, name)
    case Some(k) => (names, k)
    case None => (names + [name], |names|)
  }

  lemma {:induction false} DistinctOccurrences(names: seq<string>, name: string)
    requires Distinct(names)
    ensures Occurrences(names, name) == (if name in names then 1 else 0)
    decreases |names|
  {
    if |names| > 0 {
      var init := names[..|names| - 1];
      assert names == init + [names[|names| - 1]];
      DistinctOccurrences(init, name);
      if names[|names| - 1] == name {
        assert name !in init;
      }
    }
  }

  /** Find-or-create keeps names unique and leaves exactly one row for `name`. */
  lemma FindOrCreateDistinct(names: seq<string>, name: string)
    requires Distinct(names)
    ensures Distinct(FindOrCreate(names, name).0)
    ensures Occurrences(FindOrCreate(names, name).0, name) == 1
  {
    DistinctOccurrences(FindOrCreate(names, name).0, name);
  }

  /** The recursive definition of Distinct says that no two positions carry the same name. */
  lemma {:induction false} DistinctPairwise(names: seq<string>)
    ensures Distinct(names) <==> forall i, j :: 0 <= i < j < |names| ==> names[i] != names[j]
    decreases |names|
  {
    if |names| > 0 {
      var init := names[..|names| - 1];
      DistinctPairwise(init);
      assert forall i :: 0 <= i < |init| ==> init[i] == names[i];
    }
  }

  /** Resolving the same name twice returns the same id and creates nothing more. */
  lemma FindOrCreateIdempotent(names: seq<string>, name: string)
    requires Distinct(names)
    ensures var (names1, id1) := FindOrCreate(names, name);
            FindOrCreate(names1, name) == (names1, id1)
  {
    var (names1, id1) := FindOrCreate(names, name);
    FindOrCreateDistinct(names, name);
    DistinctPairwise(names1);
    var (names2, id2) := FindOrCreate(names1, name);
    assert forall k :: 0 <= k < |names1| && names1[k] == name ==> k == id1;
  }

  /** The first account with login code `userId`: Prisma's `connect: { userId }`. */
  function UserByLogin(users: seq<User>, userId: string): (r: Option<nat>)
    ensures r.None? <==> forall k :: 0 <= k < |users| ==> users[k].userId != userId
    ensures r.Some? ==> r.value < |users| && users[r.value].userId == userId
  {
    if |users| == 0 then None
    else if users[|users| - 1].userId == userId then
      match UserByLogin(users[..|users| - 1], userId)
      case Some(k) => Some(k)
      case None => Some(|users| - 1)
    else UserByLogin(users[..|users| - 1], userId)
  }

  /**
   * The atomic nested write of a voucher header: resolve customer and truck
   * by name, link the creator, append the voucher. Returns the new store and
   * the new voucher's id.
   */
  function CreateVoucher(s: Store, number: string, customer: string, truck: string, date: int,
                         creatorId: nat): (r: (Store, nat))
    ensures var (s', id) := r;
            && id == |s.vouchers|
            && s'.customers == FindOrCreate(s.customers, customer).0
            && s'.trucks == FindOrCreate(s.trucks, truck).0
            && |s'.vouchers| == id + 1 && s'.vouchers[..id] == s.vouchers
            && s'.vouchers[id].voucherNumber == number && s'.vouchers[id].date == date
            && s'.vouchers[id].createdById == creatorId && s'.vouchers[id].status == Active
            && s'.vouchers[id].customerId < |s'.customers| && s'.customers[s'.vouchers[id].customerId] == customer
            && s'.vouchers[id].truckId < |s'.trucks| && s'.trucks[s'.vouchers[id].truckId] == truck
            && (customer in s.customers ==> s'.customers == s.customers)
            && (truck in s.trucks ==> s'.trucks == s.trucks)
            && s'.users == s.users && s'.details == s.details
  {
    var (customers', customerId) := FindOrCreate(s.customers, customer);
    var (trucks', truckId) := FindOrCreate(s.trucks, truck);
    var v := Voucher(number, customerId, truckId, date, creatorId, Active);
    (s.(customers := customers', trucks := trucks', vouchers := s.vouchers + [v]), |s.vouchers|)
  }

  /** A valid store stays valid when a voucher with an existing creator is created. */
  lemma CreateVoucherValid(s: Store, number: string, customer: string, truck: string, date: int,
                           creatorId: nat)
    requires Valid(s) && creatorId < |s.users|
    ensures Valid(CreateVoucher(s, number, customer, truck, date, creatorId).0)
  {
    FindOrCreateDistinct(s.customers, customer);
    FindOrCreateDistinct(s.trucks, truck);
  }
}

=== FILE: voucher_service.dfy ===
/**
 * The voucher service (src/voucher/voucher.service.ts): escaping of the
 * search text, the filtered and paginated voucher list, and invoice
 * creation through the same find-or-create as the migration.
 */
module VoucherService {
  import opened Wrappers
  import opened Store
  import opened Pagination

  // ------------------------------------------------------------------ escaping

  /** The characters the escaping regular expression matches. */
  const RegexSpecials: string := ".*+?^${}()|[]\\"

  predicate IsRegexSpecial(c: char) {
    c in RegexSpecials
  }

  function CountSpecial(q: string): nat {
    if |q| == 0 then 0 else (if IsRegexSpecial(q[0]) then 1 else 0) + CountSpecial(q[1..])
  }

  /** `escapeRegex`: a backslash before every special character, the rest untouched. */
  function EscapeRegex(q: string): (r: string)
    ensures |r| == |q| + CountSpecial(q)
  {
    if |q| == 0 then []
    else (if IsRegexSpecial(q[0]) then ['\\', q[0]] else [q[0]]) + EscapeRegex(q[1..])
  }

  /** Reading an escaped pattern back as literal text: `\c` stands for `c`. */
  function Unescape(r: string): string {
    if |r| == 0 then []
    else if r[0] == '\\' && |r| >= 2 then [r[1]] + Unescape(r[2..])
    else [r[0]] + Unescape(r[1..])
  }

  /** The escaped pattern denotes exactly the search text. */
  lemma {:induction false} UnescapeEscape(q: string)
    ensures Unescape(EscapeRegex(q)) == q
  {
    if |q| > 0 {
      var rest := EscapeRegex(q[1..]);
      UnescapeEscape(q[1..]);
      if IsRegexSpecial(q[0]) {
        assert EscapeRegex(q) == ['\\', q[0]] + rest;
        assert (['\\', q[0]] + rest)[2..] == rest;
      } else {
        assert EscapeRegex(q) == [q[0]] + rest;
        assert ([q[0]] + rest)[1..] == rest;
      }
      assert q == [q[0]] + q[1..];
    }
  }

  /** Escaping works character by character, so it distributes over concatenation. */
  lemma {:induction false} EscapeConcat(a: string, b: string)
    ensures EscapeRegex(a + b) == EscapeRegex(a) + EscapeRegex(b)
  {
    if |a| > 0 {
      assert (a + b)[0] == a[0];
      assert (a + b)[1..] == a[1..] + b;
      EscapeConcat(a[1..], b);
    } else {
      assert a + b == b;
    }
  }

  /** Text without special characters is its own escape, and only such text is. */
  lemma {:induction false} EscapeIdentityIff(q: string)
    ensures EscapeRegex(q) == q <==> CountSpecial(q) == 0
  {
    if |q| > 0 {
      EscapeIdentityIff(q[1..]);
      if CountSpecial(q) == 0 {
        assert EscapeRegex(q) == [q[0]] + EscapeRegex(q[1..]);
        assert q == [q[0]] + q[1..];
      }
    }
  }

  // ------------------------------------------------------------------- listing

  /** The store's `contains` string filter: `needle` occurs somewhere in `hay`. */
  predicate Contains(hay: string, needle: string)
    decreases |hay|
  {
    (|needle| <= |hay| && hay[..|needle|] == needle) || (|hay| > 0 && Contains(hay[1..], needle))
  }

  /** The query parameters of `getAll`; `None` stands for a missing parameter. */
  datatype ListQuery = ListQuery(page: int, rowPerPage: int, search: Option<string>, startDate: Option<int>,
                                 endDate: Option<int>)

  /** The escaped search, when the search is truthy (present and not empty). */
  function SearchPattern(q: ListQuery): (r: Option<string>)
    ensures r.Some? <==> q.search.Some? && q.search.value != ""
    ensures r.Some? ==> Unescape(r.value) == q.search.value
  {
    match q.search
    case Some(text) =>
      if text == "" then None
      else
        UnescapeEscape(text);
        Some(EscapeRegex(text))
    case None => None
  }

  /** The name of row `id` contains `pattern`; a dangling id matches nothing. */
  predicate NameContains(names: seq<string>, id: nat, pattern: string) {
    id < |names| && Contains(names[id], pattern)
  }

  /** The `where` filter shared by the list and the count. */
  predicate Listed(s: Store, v: Voucher, q: ListQuery) {
    && v.status == Active
    && (match SearchPattern(q)
        case None => true
        case Some(p) =>
          Contains(v.voucherNumber, p) || NameContains(s.customers, v.customerId, p)
          || NameContains(s.trucks, v.truckId, p))
    && (q.startDate.Some? && q.endDate.Some? ==> q.startDate.value <= v.date <= q.endDate.value)
  }

  /** Ids below `n` of the vouchers the filter admits, newest (`createdAt` desc) first. */
  function ListedIds(s: Store, q: ListQuery, n: nat): (r: seq<nat>)
    requires n <= |s.vouchers|
    ensures forall k :: 0 <= k < |r| ==> r[k] < n && Listed(s, s.vouchers[r[k]], q)
    ensures forall id :: 0 <= id < n && Listed(s, s.vouchers[id], q) ==> id in r
    ensures forall a, b :: 0 <= a < b < |r| ==> r[a] > r[b]
  {
    if n == 0 then []
    else (if Listed(s, s.vouchers[n - 1], q) then [n - 1] else []) + ListedIds(s, q, n - 1)
  }

  datatype VoucherPage = VoucherPage(data: seq<nat>, currentPage: int, rowPerPage: int, totalCount: nat,
                                     totalPages: nat)

  /** The HttpException the catch block throws. */
  datatype HttpError = HttpError(status: nat, message: string)

  const InternalServerError := HttpError(500, "Internal server error")

  /**
   * `getAll`: filter, order newest first, skip `(page - 1) * rowPerPage`,
   * take `rowPerPage`, and count with the same filter.
   */
  function GetAll(s: Store, q: ListQuery): (r: Result<VoucherPage, HttpError>)
    requires q.rowPerPage > 0
    ensures Offset(q.page, q.rowPerPage) < 0 <==> r == Err(InternalServerError)
    ensures Offset(q.page, q.rowPerPage) >= 0 ==> r.Ok?
    ensures r.Ok? ==>
              var all := ListedIds(s, q, |s.vouchers|);
              && |r.value.data| <= q.rowPerPage
              && r.value.data == Slice(all, Offset(q.page, q.rowPerPage), q.rowPerPage)
              && (forall k :: 0 <= k < |r.value.data| ==>
                    r.value.data[k] < |s.vouchers| && Listed(s, s.vouchers[r.value.data[k]], q))
              && r.value.totalCount == |all|
              && r.value.totalPages * q.rowPerPage >= r.value.totalCount
              && (r.value.totalPages > 0 ==> (r.value.totalPages - 1) * q.rowPerPage < r.value.totalCount)
              && r.value.currentPage == q.page
  {
    var skip := Offset(q.page, q.rowPerPage);
    if skip < 0 then Err(InternalServerError)
    else
      var all := ListedIds(s, q, |s.vouchers|);
      Ok(VoucherPage(Slice(all, skip, q.rowPerPage), q.page, q.rowPerPage, |all|, CeilDiv(|all|, q.rowPerPage)))
  }

  lemma {:induction false} DecreasingCard(xs: seq<nat>)
    requires forall a, b :: 0 <= a < b < |xs| ==> xs[a] > xs[b]
    ensures |(set x: nat | x in xs)| == |xs|
  {
    if |xs| > 0 {
      var rest := xs[1..];
      assert xs == [xs[0]] + rest;
      DecreasingCard(rest);
      var restSet := set x: nat | x in rest;
      assert xs[0] !in restSet;
      assert (set x: nat | x in xs) == {xs[0]} + restSet;
      assert |{xs[0]} + restSet| == 1 + |restSet|;
    }
  }

  /** The count is the number of vouchers the filter admits, each counted once. */
  lemma ListedIdsCount(s: Store, q: ListQuery)
    ensures |ListedIds(s, q, |s.vouchers|)| == |set id | 0 <= id < |s.vouchers| && Listed(s, s.vouchers[id], q)|
  {
    var all := ListedIds(s, q, |s.vouchers|);
    DecreasingCard(all);
    assert (set x: nat | x in all) == set id | 0 <= id < |s.vouchers| && Listed(s, s.vouchers[id], q);
  }

  /** A search only narrows the list: whatever it admits, the unsearched query admits. */
  lemma SearchNarrows(s: Store, v: Voucher, q: ListQuery)
    requires Listed(s, v, q)
    ensures Listed(s, v, q.(search := None))
    ensures v.status == Active
  {
  }

  /** Without both dates the list ignores dates: one bound alone changes nothing. */
  lemma OneDateIgnored(s: Store, v: Voucher, q: ListQuery)
    requires q.startDate.None? || q.endDate.None?
    ensures Listed(s, v, q) <==> Listed(s, v, q.(startDate := None, endDate := None))
  {
  }

  /** Stepping through every page of the list shows each admitted voucher exactly once. */
  lemma GetAllPagesCover(s: Store, q: ListQuery)
    requires q.rowPerPage > 0
    ensures var all := ListedIds(s, q, |s.vouchers|);
            PagesUpTo(all, q.rowPerPage, CeilDiv(|all|, q.rowPerPage)) == all
  {
    AllPagesCoverSource(ListedIds(s, q, |s.vouchers|), q.rowPerPage);
  }

  // ---------------------------------------------------------- invoice creation

  datatype InvoiceHeader = InvoiceHeader(invoiceId: string, customer: string, truck: string, date: int)

  datatype InvoiceLine = InvoiceLine(
    particular: string,
    particularNote: string,
    ply: string,
    size: string,
    unitPrice: int,
    qty: int,
    note: string)

  datatype InvoiceError =
    | CreatorNotFound   // `connect: { id: account.id }` found no account
    | VoucherRejected   // the store refused the voucher create
    | DetailsRejected   // the store refused the detail createMany

  datatype InvoiceReply = InvoiceCreated(voucherId: nat, detailCount: nat)

  /** The detail row built for one invoice line of voucher `vid`. */
  function LineToDetail(line: InvoiceLine, vid: nat): (d: VoucherDetail)
    ensures d.voucherId == vid
    ensures d.amount == line.unitPrice * line.qty
    ensures d.note.None? <==> line.note == ""
    ensures d.note.Some? ==> d.note.value == line.note
    ensures d.unitPrice == line.unitPrice && d.qty == line.qty && d.status == Active
  {
    VoucherDetail(vid, line.particular, line.particularNote, line.ply, line.size, line.unitPrice, line.qty,
                  line.unitPrice * line.qty, if line.note == "" then None else Some(line.note), Active)
  }

  /**
   * `createInvoice`: create the voucher (customer and truck found or created
   * by name, creator the calling account), then all its details in one
   * createMany. The two writes are separate: when the second throws the
   * voucher stays.
   */
  function CreateInvoice(s: Store, accountId: nat, inv: InvoiceHeader, lines: seq<InvoiceLine>,
                         voucherFails: bool, detailsFail: bool): (r: (Store, Result<InvoiceReply, InvoiceError>))
    ensures accountId >= |s.users| ==> r == (s, Err(CreatorNotFound))
    ensures accountId < |s.users| && voucherFails ==> r == (s, Err(VoucherRejected))
    ensures accountId < |s.users| && !voucherFails ==>
              var (s', reply) := r;
              var vid := |s.vouchers|;
              && |s'.vouchers| == vid + 1 && s'.vouchers[..vid] == s.vouchers
              && s'.vouchers[vid].voucherNumber == inv.invoiceId
              && s'.vouchers[vid].date == inv.date
              && s'.vouchers[vid].createdById == accountId
              && s'.vouchers[vid].customerId < |s'.customers|
              && s'.customers[s'.vouchers[vid].customerId] == inv.customer
              && s'.vouchers[vid].truckId < |s'.trucks|
              && s'.trucks[s'.vouchers[vid].truckId] == inv.truck
              && s'.customers == FindOrCreate(s.customers, inv.customer).0
              && s'.trucks == FindOrCreate(s.trucks, inv.truck).0
              && s'.users == s.users
              && (detailsFail ==> reply == Err(DetailsRejected) && s'.details == s.details)
              && (!detailsFail ==>
                    && reply == Ok(InvoiceCreated(vid, |lines|))
                    && |s'.details| == |s.details| + |lines|
                    && s'.details[..|s.details|] == s.details
                    && forall k :: 0 <= k < |lines| ==> s'.details[|s.details| + k] == LineToDetail(lines[k], vid))
  {
    if accountId >= |s.users| then (s, Err(CreatorNotFound))
    else if voucherFails then (s, Err(VoucherRejected))
    else
      var (s1, vid) := CreateVoucher(s, inv.invoiceId, inv.customer, inv.truck, inv.date, accountId);
      if detailsFail then (s1, Err(DetailsRejected))
      else
        var created := seq(|lines|, k requires 0 <= k < |lines| => LineToDetail(lines[k], vid));
        assert (s1.details + created)[..|s.details|] == s.details;
        (s1.(details := s1.details + created), Ok(InvoiceCreated(vid, |lines|)))
  }

  /** Invoice creation keeps the store valid whichever write throws. */
  lemma CreateInvoiceValid(s: Store, accountId: nat, inv: InvoiceHeader, lines: seq<InvoiceLine>,
                           voucherFails: bool, detailsFail: bool)
    requires Valid(s)
    ensures Valid(CreateInvoice(s, accountId, inv, lines, voucherFails, detailsFail).0)
  {
    if accountId < |s.users| && !voucherFails {
      CreateVoucherValid(s, inv.invoiceId, inv.customer, inv.truck, inv.date, accountId);
      var r := CreateInvoice(s, accountId, inv, lines, voucherFails, detailsFail).0;
      assert forall d :: d in r.details ==> d in s.details || d.voucherId == |s.vouchers|;
    }
  }
}

=== FILE: wrappers.dfy ===
/** The optional-value and outcome types shared by every module of the model. */
module Wrappers {

  /** A value that may be absent: JavaScript's null/undefined. */
  datatype Option<+T> = None | Some(value: T)

  /** The outcome of an operation that either returns a value or throws. */
  datatype Result<+R, +E> = Ok(value: R) | Err(error: E)
}
